=== FILE: README.md ===
# tf2elo in Dafny

A verified functional model of tf2elo. It is an Elo rating and playoff-forecast engine for a
TF2 league season. It comes as two near-identical scripts over one data model:

- `tf2elo.py`, the ROLLING forecast: ratings keep moving inside every simulated trial.
- `simulation/tf2elo.py`, the FROZEN forecast: ratings stay fixed, win counts get a small random
  jitter to break ties, and a weekly page is written by `simulation/printer.py`.

The model covers:

- the `Match` and `Team` records and `set_scores` (module `Model`);
- the Elo step `update_elos` (module `Elo`). The curve `10^(r/400)` is an abstract, strictly
  positive real function `Curve`. Where a property needs it, the curve is assumed increasing.
- `read_season` after parsing (module `Season`): build the matches, sort them stably by date,
  register teams and tally the recorded results. A missing team is Python's `KeyError`, modelled
  as the `UnknownTeam` failure.
- `calculate_elo`, the replay of the recorded results (module `History`);
- the end of a trial shared by both forecasts (module `Playoffs`): rank by wins, best first and
  stable, then credit the top four on the canonical teams;
- the ROLLING forecast (module `Rolling`);
- the FROZEN forecast, `set_match_probs` and `calculate_next_season_start_elos` (module `Frozen`);
- the playoff band, the Elo table and the match listing of the weekly page (module `Printer`);
- one stable insertion sort used by every sort in the scripts (module `Sorting`).

The roster (a Python dict) is a sequence of teams in insertion order. Names are unique in it,
and a lookup is by name (`Model.Find`). Random numbers are inputs: one uniform draw per
scheduled match per trial and, in the FROZEN forecast, one jitter value per team per trial.
Ratings are exact reals.

## Model

| member | source | states |
|---|---|---|
| Model.NewMatch | model.py:3-14 | a new match has no result and is not marked original; its scores are 0 and 0, its probabilities 0.5 and 0.5, and it satisfies the consistency invariant |
| Model.SetScores | model.py:16-22 | after recording a score the match is completed with those scores; team1 wins exactly on a strictly higher score, so equal scores go to team2; the probabilities are 1/0 for the winner/loser and sum to one; sides, map, date and the original mark are unchanged |
| Model.SetScoresOverwrites | model.py:16-22 | recording a score twice leaves no trace of the first score |
| Model.NewTeam | model.py:24-30 | a new team is at 1500 with zero matches for, against and playoff appearances |
| Model.Find | tf2elo.py:46 | the lookup finds a position holding that name, and fails exactly when no team has the name |
| Model.FindUnique | tf2elo.py:54-55 | in a roster with unique names, looking up a team's name finds that team |
| Model.Credit | tf2elo.py:56-61 | crediting a result gives the winner one match for and the loser one match against; nothing else changes; total wins and total losses each grow by one |
| Elo.Expected | tf2elo.py:19-23 | the expected score lies strictly between 0 and 1, and is exactly 1/2 between equal ratings |
| Elo.ExpectedComplement | tf2elo.py:22-23 | the two sides' expected scores sum to one |
| Elo.ExpectedFavoursHigher | tf2elo.py:19-22 | on an increasing curve the higher-rated side has expected score above 1/2 |
| Elo.UpdateElos | tf2elo.py:18-28 | the step is zero-sum when the probabilities sum to one; a 1/0 result strictly raises the winner and lowers the loser; between equal ratings each side moves by K times (outcome - 1/2) |
| Elo.UpdateElosSwap | tf2elo.py:18-28 | listing the sides the other way round swaps the two new ratings |
| Elo.UpdateElosEvenMatch | tf2elo.py:19-26 | between equal ratings a win is worth exactly K/2 to the winner and costs K/2 to the loser |
| Elo.UpdateElosUpset | tf2elo.py:18-28 | on an increasing curve, an upset moves both ratings by more than K/2 |
| Season.MakeMatch | simulation/tf2elo.py:44-51 | a row's match has the row's sides, map and date; it is completed exactly when the row has a score, and then carries that score; it is marked original exactly when marking is on and it has a score; it is consistent |
| Season.SortByDate | tf2elo.py:43 | the sort is a permutation, ascending by date, and matches on the same date keep their row order |
| Season.Registration | tf2elo.py:47-49 | a registered team has its starting rating if one is listed, else 1500, and empty tallies |
| Season.Enrol | tf2elo.py:46-50 | a name already present leaves the roster unchanged; otherwise it is appended with its registration; names stay unique and the known names grow by exactly this name |
| Season.ListedMember | tf2elo.py:45-46 | a registration pass sees a name exactly when some match names it on a side that is registered |
| Season.Register | tf2elo.py:45-50 | registration appends fresh teams at their starting ratings behind the roster it started from; names stay unique; a name is known afterwards exactly when it was known before or named on a registered side of some match; the new names come in the order they are first met in the schedule, which is the dict's insertion order |
| Season.FirstSeenOnce | tf2elo.py:45-50 | the names first met are exactly the listed names not already known, each once |
| Season.Tally | tf2elo.py:52-61 | the tally fails exactly when a recorded result names an unregistered side; otherwise names, ratings and playoff counts are kept and total wins and total losses each grow by the number of recorded results |
| Season.TallyCounts | tf2elo.py:52-61 | with unique names and consistent results, each team gains one match for per recorded result it won and one match against per recorded result it lost |
| Season.CreditCounts | tf2elo.py:56-61 | crediting one consistent result moves each team by exactly its own win and its own loss |
| Season.Load | tf2elo.py:43-63 | the loader fails exactly when a recorded result names an away team that registration never saw |
| Season.ScheduleOrder | tf2elo.py:43 | the season's matches are the rows' matches, sorted ascending by date and stable on equal dates |
| Season.ScheduleMarks | simulation/tf2elo.py:45-53 | every loaded match is consistent, and with marking on `orig_completed` holds exactly on the matches that had a score |
| Season.LoadRoster | tf2elo.py:44-50 | a loaded roster has unique names and holds exactly the names on registered sides of the schedule, in the order they first appear in the date-sorted schedule; each team is at its starting rating with no playoff appearances |
| Season.LoadTotals | tf2elo.py:52-61 | in a loaded season total wins and total losses both equal the number of recorded results |
| Season.LoadKnowsResults | tf2elo.py:52-55 | in a loaded season both sides of every recorded result are in the roster |
| Season.ReadSeason | tf2elo.py:43-63 | as written: it succeeds exactly when every recorded result's away team is some row's home team; the roster holds exactly the home teams at their starting ratings, in the order each first appears as home team in the date-sorted schedule; both tallies total the recorded results |
| Season.ReadSeasonCounts | tf2elo.py:52-61 | after loading, each team's tallies count exactly the recorded results it won and lost |
| Season.AwayOnlyTeamRaises | tf2elo.py:45-55 | a one-row season with a result raises `KeyError` on the away team |
| Season.ReadSeasonRegisteringBoth | tf2elo.py:43-63 | corrected: registering both sides never fails, the roster holds exactly the names on either side, in the order each is first met (home side before away side), and both sides of every match are known |
| History.Rate | tf2elo.py:78-80 | writing back an Elo step moves only the two sides' ratings, to the step's values, and keeps the rating total for two distinct sides; a team playing itself ends with team2's new rating, the second write |
| History.CalculateElo | tf2elo.py:70-80 | the replay fails exactly when a recorded result names an unregistered side; it never changes tallies or playoff counts; on consistent matches without self-matches it keeps the rating total |
| History.CalculateEloSkipsPending | tf2elo.py:72-73 | unplayed matches do not affect the replay: it equals the replay of the recorded results alone |
| History.CalculateEloAppend | tf2elo.py:72-80 | the replay is a left fold: replaying a + b is replaying b from where a left the ratings |
| History.LoadedSeasonReplays | tf2elo.py:127-129 | after a successful load the replay cannot fail |
| History.RegisteredSeasonReplays | tf2elo.py:127-129 | with both sides registered, loading and replaying never fail |
| History.OneResultSeason | tf2elo.py:30-80 | a two-team season with one 5-0 result leaves the winner at 1500 + K/2 and the loser at 1500 - K/2 with one match each, on any curve |
| Playoffs.Standings | simulation/tf2elo.py:124-125 | each trial team's ranking score is its wins plus its own jitter |
| Playoffs.Rank | tf2elo.py:118 | ranking is a permutation, best score first, and equal scores keep roster order |
| Playoffs.Qualifiers | tf2elo.py:118-119 | the qualifiers are the first min(4, n) standings of the ranking; they are drawn from the standings, each at most as often as it occurs, and none of the rest scores higher |
| Playoffs.Award | tf2elo.py:119-120 | crediting the qualifiers fails exactly when a qualifier's name is not on the canonical roster; otherwise only playoff counts change, growing in total by the number of qualifiers |
| Playoffs.AwardCounts | tf2elo.py:119-120 | each canonical team gains one appearance per qualifier of its name |
| Playoffs.PlayoffRound | tf2elo.py:118-120 | a trial played on a copy of the roster always credits its qualifiers, changes only playoff counts and adds min(4, n) appearances in total |
| Playoffs.PlayoffRoundOncePerTeam | tf2elo.py:118-120 | with unique names a team gains at most one appearance per trial, and gains one exactly when it qualifies |
| Playoffs.JitterKeepsWinOrder | simulation/tf2elo.py:122-127 | jitter in [0, 0.01) never ranks a team with fewer wins above one with more |
| Playoffs.AppearancesAtMostOne | tf2elo.py:119-120 | among qualifiers with distinct names a name appears at most once, and exactly once if present |
| Playoffs.EqualWinsKeepRosterOrder | tf2elo.py:118 | without jitter, teams with the same number of wins keep their roster order in the ranking |
| Rolling.PlayMatch | tf2elo.py:90-116 | a recorded result is skipped; otherwise the match fails exactly on an unregistered side; team1 wins exactly when the draw is below its expected score; the winner gets one match for and a higher rating, the loser one match against and a lower rating; between two different teams the two new ratings are exactly the Elo step on the 1/0 result and the rating total is kept; every team not in the match is left exactly as it was |
| Rolling.Decide | tf2elo.py:101-116 | a simulated result credits the winner and loser, sets their ratings to the Elo step on the result and keeps the rating total; every other team is left exactly as it was; a team playing itself is credited both ways and ends with team2's new rating |
| Rolling.PlayMatchPerTeam | tf2elo.py:90-116 | for any team of a roster with unique names, one match adds to its matches for plus against the number of sides of the unplayed match that name it, and a team the match does not name is left exactly as it was |
| Rolling.PlayPerTeam | tf2elo.py:90-116 | over a trial's pass, a team's matches for plus against grow by the number of its sides among the unplayed matches, and a team that no unplayed match names ends exactly as it started, rating included |
| Rolling.Play | tf2elo.py:90-116 | a trial's pass fails exactly when an unplayed match names an unregistered side; it adds one win and one loss per unplayed match and, without self-matches, keeps the rating total |
| Rolling.Trial | tf2elo.py:87-120 | one trial leaves canonical ratings and tallies as they were and adds min(4, n) playoff appearances in total |
| Rolling.SimulateSeason | tf2elo.py:84-120 | the forecast fails exactly when an unplayed match names an unregistered side; it keeps ratings and tallies and adds trials x min(4, n) appearances in total |
| Rolling.TrialOncePerTeam | tf2elo.py:118-120 | in one trial a team gains at most one appearance |
| Rolling.SimulateSeasonPerTeam | tf2elo.py:84-120 | over the forecast a team's appearances grow by at most the number of trials |
| Frozen.PlayMatch | simulation/tf2elo.py:99-120 | a match marked original is skipped; otherwise the match fails exactly on an unregistered side; team1 wins exactly when the draw is below its expected score; the score is written onto the match; the trial's teams are credited and no rating changes |
| Frozen.PlayMatchCredits | simulation/tf2elo.py:103-120 | for any team of a roster with unique names, a simulated match adds one match for exactly when the team is the written winner and one match against exactly when it is the written loser |
| Frozen.PlayMatchLeavesOthers | simulation/tf2elo.py:103-120 | a simulated match leaves every team other than its two sides exactly as it was |
| Frozen.Play | simulation/tf2elo.py:99-120 | a trial's pass leaves original matches as they were and every other match completed; it keeps ratings and adds one win and one loss per unplayed match |
| Frozen.PlayCredits | simulation/tf2elo.py:99-120 | after a trial's pass, each team's matches for grow by the simulated results it won and its matches against by those it lost; results with an original score are not credited again |
| Frozen.Trial | simulation/tf2elo.py:97-129 | one trial leaves canonical ratings and tallies as they were and adds min(4, n) playoff appearances in total |
| Frozen.TrialOncePerTeam | simulation/tf2elo.py:127-129 | in one trial a team gains at most one appearance |
| Frozen.SimulateSeason | simulation/tf2elo.py:94-129 | as written: after at least one trial every unplayed match of the caller's list reads as completed; ratings and tallies are kept and trials x min(4, n) appearances are added |
| Frozen.SimulateSeasonOnCopies | simulation/tf2elo.py:94-129 | corrected: the caller's matches come back unchanged, with the same guarantees on the roster |
| Frozen.ForecastUnaffectedByWrites | simulation/tf2elo.py:96-100 | the written scores never change the forecast: both versions fail together and give every team the same playoff count |
| Frozen.SimulateSeasonPerTeam | simulation/tf2elo.py:94-129 | over the forecast a team's appearances grow by at most the number of trials |
| Frozen.WritesScoreOntoCallersMatch | simulation/tf2elo.py:99-113 | one trial with draw 0.3 between even teams leaves the caller's unplayed match completed 5-0 |
| Frozen.ForecastLeavesInconsistentMatch | simulation/tf2elo.py:131-144 | after that trial and `set_match_probs`, the match is completed with a winner yet priced 0.5/0.5, breaking the consistency invariant |
| Frozen.CopiesLeaveMatchPending | simulation/tf2elo.py:131-144 | on copies the same match stays unplayed and consistent after pricing |
| Frozen.SetMatchProbs | simulation/tf2elo.py:131-144 | pricing fails exactly when an unplayed match names an unregistered side; original matches are unchanged; every other match changes only in its probabilities, which are the expected scores, sum to one and lie strictly between 0 and 1 |
| Frozen.Price | simulation/tf2elo.py:133-144 | one match is priced as above |
| Frozen.NextSeasonElo | simulation/tf2elo.py:148 | next season's rating lies between 1500 and the rating, keeps 66% of the distance from 1500, and is 1500 exactly when the rating is |
| Frozen.NextSeasonEloMonotonic | simulation/tf2elo.py:148 | the regression keeps the teams' order by rating |
| Frozen.NextSeasonElos | simulation/tf2elo.py:146-148 | every team of the roster gets its regressed rating |
| Printer.RoundHalfEven | simulation/printer.py:14 | `%.0f` gives an integer within 1/2 of the value, and an even one on a tie |
| Printer.PlayoffBand | simulation/printer.py:8-14 | as written: "> 99%" exactly when 99.5 < pct < 99.9999, "< 1%" exactly when 0.0001 < pct < 0.5, else the rounded percentage |
| Printer.PlayoffBandCorrected | simulation/printer.py:8-14 | corrected: the boundaries 99.5 and 0.5 belong to the "> 99%" and "< 1%" bands |
| Printer.RoundsToCertainty | simulation/printer.py:8-14 | as written, 9950 of 10000 is shown as 100% and 50 of 10000 as 0% |
| Printer.CorrectedNeverClaimsCertainty | simulation/printer.py:8 | corrected, for fewer than a million trials (the script runs 10000), a count strictly between 0 and the trial count is never shown as 100% or 0% |
| Printer.MillionTrialsShowZero | simulation/printer.py:8-14 | at a million trials a single appearance is 0.0001%, not above the kept lower limit, so even the corrected bands show it as 0% |
| Printer.CertaintyShown | simulation/printer.py:13-14 | 0 and all trials fall through to the numeric band and show 0% and 100% |
| Printer.BandsAtTenThousand | simulation/printer.py:9-12 | as written, at 10000 trials "> 99%" covers counts 9951 to 9999 and "< 1%" counts 1 to 49 |
| Printer.CorrectedBandsAtTenThousand | simulation/printer.py:9-12 | corrected, at 10000 trials "> 99%" covers counts 9950 to 9999 and "< 1%" counts 1 to 50 |
| Printer.EloTable | simulation/printer.py:6-14 | one row per team, in non-increasing rating order, the teams being a stable descending sort of the roster by rating; every team's row is in the table and every row is some team's; the band is the page's as written, or the corrected one when asked for |
| Printer.ListedMatches | simulation/printer.py:19-21 | a match is listed, as often as it occurs, exactly when it is not marked original and falls on or before the end of the week |
| Printer.ListedOne | simulation/printer.py:19-21 | a single match is listed exactly when it is upcoming |
| Printer.ListedAppend | simulation/printer.py:19-21 | listing keeps schedule order: two consecutive stretches of the schedule are listed as the first stretch's listing followed by the second's |
| Printer.PercentsAddUp | simulation/printer.py:27-31 | the two printed percentages of a priced match add up to 100, also on a rounding tie |
| Printer.MatchListing | simulation/printer.py:19-31 | every row comes from a match of the schedule that is not marked original and is dated no later than the end of the week; on a schedule of valid probabilities each row's two percentages add up to 100 |
| Printer.MatchListingAppend | simulation/printer.py:19-31 | the listing is in schedule order: consecutive stretches are listed in turn, and an empty schedule lists nothing |
| Printer.MatchListingOne | simulation/printer.py:19-31 | a single match gives its row, with its date, sides and rounded percentages, when it is upcoming and nothing otherwise |
| Sorting.Sort | tf2elo.py:43 | the sort is ascending, a permutation, and stable: for every key, the elements carrying it keep their order |
| Sorting.PermutationKeepsDistinct | tf2elo.py:118 | reordering a list without duplicates creates none |

## Left out

- Reading the CSV file, `dateutil` date parsing and the string-to-int score parsing are outside the model. A row arrives with its score already split into two integers, and a date is an integer that is only compared.
- The curve `10^(r/400)` and floating-point arithmetic: the curve is any strictly positive function, made increasing where a lemma needs it, and ratings are exact reals. Float rounding is not modelled.
- The numpy random number generator: draws and jitter are inputs. Statistical convergence of the forecast is not stated.
- `tqdm` progress bars, `print`, `dump_elos`, the `__main__` argument handling and the console output are left out.
- The HTML markup, reading the template, writing the output file and the month/day date format are left out; the page is the sequence of rows it shows.
- `datetime.today()`: the end of the week is a parameter.
- The FROZEN `simulate_season` reads the module-global `matches`. `__main__` passes that same list as its argument, so the model takes it as a parameter.
- Frozen.SimulateSeason: Python mutates the shared match objects in place. The model returns the matches as the trials leave them instead.
- Printer.PlayoffBand: requires a positive trial count, where Python would divide by zero.
- Printer.CorrectedNeverClaimsCertainty: stated for fewer than a million trials. The corrected bands keep the script's 99.9999 and 0.0001 limits, and from a million trials on an uncertain count can reach them (Printer.MillionTrialsShowZero).
- History.CalculateElo: the rating total is stated only for schedules without self-matches. For a team playing itself the second write wins, and the total changes.
- Rolling.Play: the rating total is stated only for schedules without self-matches, for the same reason.
- Rolling.PlayPerTeam: gives each team's matches for plus against, not the split between them. The split depends on each match's simulated winner, and the script writes those winners onto per-trial copies of the matches that it then discards, so the model does not return them.
- The `starting_elos` tables of the two scripts are data. The starting ratings are a parameter of the loader. The rolling script's two-team table is `Season.RollingStartingElos`; the FROZEN script's nine-team table (simulation/tf2elo.py:15-25) is not written out.
- The trial counts are 1000 in the ROLLING script and 10000 in the FROZEN one. `Printer.NumSimulations` is the latter. The forecasts themselves take any number of trials.
- `%.0f` is modelled only as exact round-half-to-even on reals.

## Findings

| source | as written | input that shows it | evidently intended | confidence | as-written member | corrected member |
|---|---|---|---|---|---|---|
| tf2elo.py:45-55, simulation/tf2elo.py:55-65 | only `match.team1` is registered, and the tally then looks up `teams[match.team2]` | one row `froyotech` vs `Ascent` with score 5-0: `Ascent` is never a home team, so the tally raises `KeyError` | register both sides of every match | not executed; high | Season.ReadSeason, Season.AwayOnlyTeamRaises | Season.ReadSeasonRegisteringBoth, History.RegisteredSeasonReplays |
| simulation/tf2elo.py:96-118 | the comment says originals are not modified, yet each trial calls `set_scores` on the caller's matches | one unplayed match between two 1500 teams and one trial with draw 0.3: the match comes back completed 5-0, and after `set_match_probs` it is priced 0.5/0.5 while claiming a winner | play each trial on copies of the matches | not executed; medium, since the page reads only `orig_completed` and the probabilities, and Frozen.ForecastUnaffectedByWrites proves the playoff counts unaffected | Frozen.SimulateSeason, Frozen.WritesScoreOntoCallersMatch, Frozen.ForecastLeavesInconsistentMatch | Frozen.SimulateSeasonOnCopies, Frozen.ForecastUnaffectedByWrites, Frozen.CopiesLeaveMatchPending |
| simulation/printer.py:8-14 | the bands are strict at 99.5 and 0.5, and `%.0f` rounds a tie to even | 9950 of 10000 trials gives 99.5, shown as "100%"; 50 of 10000 gives 0.5, shown as "0%" | "don't round up to 100% or down to 0%": the boundaries belong to the "> 99%" and "< 1%" bands | not executed; medium-high, as it relies on 99.5 and 0.5 being exact binary values that `%.0f` rounds to even | Printer.PlayoffBand, Printer.RoundsToCertainty, Printer.BandsAtTenThousand | Printer.PlayoffBandCorrected, Printer.CorrectedNeverClaimsCertainty, Printer.CorrectedBandsAtTenThousand |

=== FILE: elo.dfy ===
/**
  The Elo step (`update_elos`) and the logistic expectation it uses.

  The scripts compute `Q(r) = 10^(r/400)` with floating-point `pow`. The model keeps
  only what the arguments below need of that curve: it is a strictly positive real
  function, passed in as a `Curve`. Ratings are exact reals.
 */
module Elo {

  /** A rating curve: any strictly positive function of the rating. */
  type Curve = q: real -> real | forall r :: q(r) > 0.0 witness (r: real) => 1.0

  /** A strictly increasing curve: a higher rating always has a larger value, as with `10^(r/400)`. */
  ghost predicate Increasing(q: Curve) {
    forall a, b :: a < b ==> q(a) < q(b)
  }

  /** The K-factor: how far one result moves a rating (35.0 in both scripts). */
  const K: real := 35.0

  /**
    The expected score of the side rated `r1` against the side rated `r2`:
    `Q1 / (Q1 + Q2)`. It is a proper probability strictly between 0 and 1.
   */
  function Expected(q: Curve, r1: real, r2: real): (e: real)
    ensures 0.0 < e < 1.0
    ensures r1 == r2 ==> e == 0.5
  {
    var q1, q2 := q(r1), q(r2);
    Share(q1, q2);
    q1 / (q1 + q2)
  }

  /** What the expectation needs of real division: `a/(a+b)` is the share of `a` in `a+b`. */
  lemma Share(a: real, b: real)
    requires a > 0.0 && b > 0.0
    ensures 0.0 < a / (a + b) < 1.0
    ensures a / (a + b) + b / (a + b) == 1.0
    ensures a == b ==> a / (a + b) == 0.5
    ensures a > b ==> a / (a + b) > 0.5
  {
    var s := a + b;
    assert a / s + b / s == s / s == 1.0;
    assert b / s > 0.0;
    if a > b {
      assert a / s - b / s == (a - b) / s;
      assert (a - b) / s > 0.0;
    }
  }

  /** The two sides' expected scores sum to one. */
  lemma ExpectedComplement(q: Curve, r1: real, r2: real)
    ensures Expected(q, r1, r2) + Expected(q, r2, r1) == 1.0
  {
    var q1, q2 := q(r1), q(r2);
    assert q1 / (q1 + q2) + q2 / (q2 + q1) == (q1 + q2) / (q1 + q2);
  }

  /** On an increasing curve, the higher-rated side is the favourite. */
  lemma ExpectedFavoursHigher(q: Curve, r1: real, r2: real)
    requires Increasing(q)
    requires r1 > r2
    ensures Expected(q, r1, r2) > 0.5
  {
    assert q(r2) < q(r1);
    FavouredByCurve(q, r1, r2);
  }

  /** The side with the larger curve value is the favourite. */
  lemma FavouredByCurve(q: Curve, r1: real, r2: real)
    requires q(r2) < q(r1)
    ensures Expected(q, r1, r2) > 0.5
  {
    Share(q(r1), q(r2));
  }

  /**
    `update_elos`: each side moves by K times the gap between the outcome it was
    credited (`t1Prob`, `t2Prob`) and the outcome it was expected to get.
   */
  function UpdateElos(q: Curve, t1Elo: real, t2Elo: real, t1Prob: real, t2Prob: real): (r: (real, real))
    ensures t1Prob + t2Prob == 1.0 ==> r.0 + r.1 == t1Elo + t2Elo
    ensures t1Prob == 1.0 && t2Prob == 0.0 ==> r.0 > t1Elo && r.1 < t2Elo
    ensures t1Prob == 0.0 && t2Prob == 1.0 ==> r.0 < t1Elo && r.1 > t2Elo
    ensures t1Elo == t2Elo ==> r == (t1Elo + K * (t1Prob - 0.5), t2Elo + K * (t2Prob - 0.5))
  {
    var e1 := Expected(q, t1Elo, t2Elo);
    var e2 := Expected(q, t2Elo, t1Elo);
    ExpectedComplement(q, t1Elo, t2Elo);
    (t1Elo + K * (t1Prob - e1), t2Elo + K * (t2Prob - e2))
  }

  /** Listing the two sides the other way round swaps the two new ratings. */
  lemma UpdateElosSwap(q: Curve, t1Elo: real, t2Elo: real, t1Prob: real, t2Prob: real)
    ensures UpdateElos(q, t2Elo, t1Elo, t2Prob, t1Prob)
         == (UpdateElos(q, t1Elo, t2Elo, t1Prob, t2Prob).1, UpdateElos(q, t1Elo, t2Elo, t1Prob, t2Prob).0)
  {
  }

  /** Between equal ratings a win is worth exactly K/2 to the winner and costs K/2 to the loser. */
  lemma UpdateElosEvenMatch(q: Curve, elo: real)
    ensures UpdateElos(q, elo, elo, 1.0, 0.0) == (elo + K / 2.0, elo - K / 2.0)
  {
  }

  /**
    On an increasing curve, losing to a lower-rated side costs more than the K/2
    lost to an equally rated one, and beating a higher-rated side gains more than K/2.
   */
  lemma UpdateElosUpset(q: Curve, t1Elo: real, t2Elo: real)
    requires Increasing(q)
    requires t1Elo > t2Elo
    ensures t1Elo - UpdateElos(q, t1Elo, t2Elo, 0.0, 1.0).0 > K / 2.0
    ensures UpdateElos(q, t1Elo, t2Elo, 0.0, 1.0).1 - t2Elo > K / 2.0
  {
    ExpectedFavoursHigher(q, t1Elo, t2Elo);
    UpsetOfFavourite(q, t1Elo, t2Elo);
  }

  /** A loss by the favourite moves both ratings by more than K/2. */
  lemma UpsetOfFavourite(q: Curve, t1Elo: real, t2Elo: real)
    requires Expected(q, t1Elo, t2Elo) > 0.5
    ensures t1Elo - UpdateElos(q, t1Elo, t2Elo, 0.0, 1.0).0 > K / 2.0
    ensures UpdateElos(q, t1Elo, t2Elo, 0.0, 1.0).1 - t2Elo > K / 2.0
  {
    var e1, e2 := Expected(q, t1Elo, t2Elo), Expected(q, t2Elo, t1Elo);
    ExpectedComplement(q, t1Elo, t2Elo);
    var r := UpdateElos(q, t1Elo, t2Elo, 0.0, 1.0);
    assert K == 35.0;
    assert r.0 == t1Elo + K * (0.0 - e1);
    assert r.1 == t2Elo + K * (1.0 - e2);
  }
}

=== FILE: frozen.dfy ===
/**
  The FROZEN forecast (`simulation/tf2elo.py`): ratings stay at their values after
  the replay for every simulated match, only matches without an original score are
  simulated, and ties in the final standings are broken by a small random jitter.
  After the forecast, `set_match_probs` gives every unplayed match its win
  probabilities, and `calculate_next_season_start_elos` regresses each rating
  towards 1500.

  The random numbers are inputs: per trial, one uniform draw per scheduled match and
  one jitter value in [0, 0.01) per team, in roster order.
 */
module Frozen {
  import opened Model
  import opened Elo
  import Playoffs
  import Season

  /** The random numbers of one trial. */
  datatype Draws = Draws(outcomes: seq<real>, jitter: seq<real>)

  /** A trial's draws cover every match of the schedule and every team of the roster. */
  ghost predicate Fits(d: Draws, matches: nat, teams: nat) {
    |d.outcomes| == matches && |d.jitter| == teams
  }

  /** Two matches are the same fixture: same sides, map, date and original status. */
  ghost predicate SameFixture(a: Match, b: Match) {
    a.team1 == b.team1 && a.team2 == b.team2 && a.mapName == b.mapName && a.date == b.date
    && a.origCompleted == b.origCompleted
  }

  ghost predicate SameFixtures(a: seq<Match>, b: seq<Match>) {
    |a| == |b| && forall k :: 0 <= k < |a| ==> SameFixture(a[k], b[k])
  }

  /**
    `out` is `ms` after a trial's writes: the same fixtures, the originally scored
    matches untouched and every other match carrying a simulated score.
   */
  ghost predicate Settles(ms: seq<Match>, out: seq<Match>) {
    && SameFixtures(ms, out)
    && forall k :: 0 <= k < |ms| ==>
         (ms[k].origCompleted ==> out[k] == ms[k]) && (!ms[k].origCompleted ==> out[k].completed)
  }

  /** A later trial's writes keep the earlier ones' guarantees. */
  lemma SettlesAgain(a: seq<Match>, b: seq<Match>, c: seq<Match>)
    requires Settles(a, b) && (c == b || Settles(b, c))
    ensures Settles(a, c)
  {
  }

  /** How many matches of `ms` had no score when the season was read. */
  function Unplayed(ms: seq<Match>): nat {
    if |ms| == 0 then 0 else (if ms[0].origCompleted then 0 else 1) + Unplayed(ms[1..])
  }

  /**
    One simulated match. A match with an original score is skipped; otherwise the
    draw decides it against team1's expected score, the score is written onto the
    match itself, and the trial's copies of the two teams are credited. Ratings are
    never written.
   */
  function PlayMatch(q: Curve, m: Match, teams: seq<Team>, draw: real): (r: Result<(Match, seq<Team>)>)
    ensures m.origCompleted ==> r == Ok((m, teams))
    ensures r.Ok? <==> m.origCompleted || Season.Knows(teams, m)
    ensures r.Ok? ==> SameFixture(m, r.value.0) && SameNames(teams, r.value.1)
    ensures r.Ok? ==> forall j :: 0 <= j < |teams| ==>
      r.value.1[j].elo == teams[j].elo && r.value.1[j].numPlayoffs == teams[j].numPlayoffs
    ensures r.Ok? && !m.origCompleted ==>
      && r.value.0.completed
      && Total(r.value.1, WinsOf) == Total(teams, WinsOf) + 1.0
      && Total(r.value.1, LossesOf) == Total(teams, LossesOf) + 1.0
      && var i1, i2 := Find(teams, m.team1).value, Find(teams, m.team2).value;
         (r.value.0.t1Prob == 1.0 <==> draw < Expected(q, teams[i1].elo, teams[i2].elo))
    ensures r.Ok? && !m.origCompleted && m.team1 != m.team2 ==>
      var i1, i2 := Find(teams, m.team1).value, Find(teams, m.team2).value;
      var team1Wins := draw < Expected(q, teams[i1].elo, teams[i2].elo);
      && r.value.1[i1].matchesFor == teams[i1].matchesFor + (if team1Wins then 1 else 0)
      && r.value.1[i2].matchesFor == teams[i2].matchesFor + (if team1Wins then 0 else 1)
      && r.value.1[i1].matchesAgainst == teams[i1].matchesAgainst + (if team1Wins then 0 else 1)
      && r.value.1[i2].matchesAgainst == teams[i2].matchesAgainst + (if team1Wins then 1 else 0)
  {
    if m.origCompleted then Ok((m, teams))
    else match (Find(teams, m.team1), Find(teams, m.team2))
      case (None, _) => UnknownTeam(m.team1)
      case (Some(_), None) => UnknownTeam(m.team2)
      case (Some(i1), Some(i2)) =>
        var e1 := Expected(q, teams[i1].elo, teams[i2].elo);
        if draw < e1 then Ok((SetScores(m, 5, 0), Credit(teams, i1, i2)))
        else Ok((SetScores(m, 0, 5), Credit(teams, i2, i1)))
  }

  /** The outcome for the teams depends only on the fixture, not on a score a match already carries. */
  lemma PlayMatchFixture(q: Curve, a: Match, b: Match, teams: seq<Team>, draw: real)
    requires SameFixture(a, b)
    ensures PlayMatch(q, a, teams, draw).Ok? == PlayMatch(q, b, teams, draw).Ok?
    ensures PlayMatch(q, a, teams, draw).Ok? ==> PlayMatch(q, a, teams, draw).value.1 == PlayMatch(q, b, teams, draw).value.1
  {
  }

  /**
    One trial's pass over the schedule: returns the matches as the pass leaves them
    and the trial's copy of the roster.
   */
  function Play(q: Curve, ms: seq<Match>, teams: seq<Team>, draws: seq<real>): (r: Result<(seq<Match>, seq<Team>)>)
    requires |draws| == |ms|
    ensures r.Ok? <==> forall m :: m in ms && !m.origCompleted ==> Season.Knows(teams, m)
    ensures r.Ok? ==> Settles(ms, r.value.0)
    ensures r.Ok? ==> SameNames(teams, r.value.1)
    ensures r.Ok? ==> forall j :: 0 <= j < |teams| ==>
      r.value.1[j].elo == teams[j].elo && r.value.1[j].numPlayoffs == teams[j].numPlayoffs
    ensures r.Ok? ==>
      && Total(r.value.1, WinsOf) == Total(teams, WinsOf) + Unplayed(ms) as real
      && Total(r.value.1, LossesOf) == Total(teams, LossesOf) + Unplayed(ms) as real
    decreases |ms|
  {
    if |ms| == 0 then Ok(([], teams))
    else
      assert ms == [ms[0]] + ms[1..];
      match PlayMatch(q, ms[0], teams, draws[0])
      case UnknownTeam(name) => UnknownTeam(name)
      case Ok((m, next)) =>
        forall name ensures Find(next, name) == Find(teams, name) {
          FindSameNames(next, teams, name);
        }
        match Play(q, ms[1..], next, draws[1..])
        case UnknownTeam(name) => UnknownTeam(name)
        case Ok((rest, trial)) => Ok(([m] + rest, trial))
  }

  /** Matches that are the same fixtures give the same trial roster. */
  lemma {:induction false} PlayFixtures(q: Curve, a: seq<Match>, b: seq<Match>, teams: seq<Team>, draws: seq<real>)
    requires |draws| == |a| && SameFixtures(a, b)
    ensures Play(q, a, teams, draws).Ok? == Play(q, b, teams, draws).Ok?
    ensures Play(q, a, teams, draws).Ok? ==> Play(q, a, teams, draws).value.1 == Play(q, b, teams, draws).value.1
    decreases |a|
  {
    if |a| > 0 {
      PlayMatchFixture(q, a[0], b[0], teams, draws[0]);
      var first := PlayMatch(q, a[0], teams, draws[0]);
      if first.Ok? {
        assert SameFixtures(a[1..], b[1..]);
        PlayFixtures(q, a[1..], b[1..], first.value.1, draws[1..]);
      }
    }
  }

  /** The matches of `out` that a trial simulated: those whose fixture in `ms` had no original score. */
  function Simulated(ms: seq<Match>, out: seq<Match>): (r: seq<Match>)
    requires |out| == |ms|
    ensures |r| == Unplayed(ms)
  {
    if |ms| == 0 then []
    else if ms[0].origCompleted then Simulated(ms[1..], out[1..])
    else [out[0]] + Simulated(ms[1..], out[1..])
  }

  /** One simulated match credits its winner with a match for and its loser with a match against. */
  lemma PlayMatchCredits(q: Curve, m: Match, teams: seq<Team>, draw: real, j: int)
    requires UniqueNames(teams) && 0 <= j < |teams|
    requires !m.origCompleted && Season.Knows(teams, m)
    ensures var p := PlayMatch(q, m, teams, draw).value;
      && p.1[j].matchesFor == teams[j].matchesFor + (if p.0.winner == teams[j].name then 1 else 0)
      && p.1[j].matchesAgainst == teams[j].matchesAgainst + (if Season.Loser(p.0) == teams[j].name then 1 else 0)
  {
    var i1, i2 := Find(teams, m.team1).value, Find(teams, m.team2).value;
    var p := PlayMatch(q, m, teams, draw).value;
    if draw < Expected(q, teams[i1].elo, teams[i2].elo) {
      assert p == (SetScores(m, 5, 0), Credit(teams, i1, i2));
    } else {
      assert p == (SetScores(m, 0, 5), Credit(teams, i2, i1));
      assert m.team1 == m.team2 ==> i1 == i2;
    }
    Season.CreditCounts(p.0, teams, p.1, j);
  }

  /** One simulated match leaves every team other than its two sides exactly as it was. */
  lemma PlayMatchLeavesOthers(q: Curve, m: Match, teams: seq<Team>, draw: real)
    requires !m.origCompleted && Season.Knows(teams, m)
    ensures var p := PlayMatch(q, m, teams, draw).value;
      var i1, i2 := Find(teams, m.team1).value, Find(teams, m.team2).value;
      forall k :: 0 <= k < |teams| && k != i1 && k != i2 ==> p.1[k] == teams[k]
  {
    var i1, i2 := Find(teams, m.team1).value, Find(teams, m.team2).value;
    var next := if draw < Expected(q, teams[i1].elo, teams[i2].elo) then Credit(teams, i1, i2) else Credit(teams, i2, i1);
    assert PlayMatch(q, m, teams, draw).value.1 == next;
    forall k | 0 <= k < |teams| && k != i1 && k != i2 ensures next[k] == teams[k] {
      assert next[k].name == teams[k].name;
    }
  }

  /**
    A team's tallies after one trial's pass grow by the simulated results it won and
    lost; results carried over from the original season are not credited again.
   */
  lemma {:induction false} PlayCredits(q: Curve, ms: seq<Match>, teams: seq<Team>, draws: seq<real>, j: int)
    requires |draws| == |ms| && UniqueNames(teams) && 0 <= j < |teams|
    requires forall m :: m in ms && !m.origCompleted ==> Season.Knows(teams, m)
    ensures var r := Play(q, ms, teams, draws).value;
      && r.1[j].matchesFor == teams[j].matchesFor + Season.Wins(Simulated(ms, r.0), teams[j].name)
      && r.1[j].matchesAgainst == teams[j].matchesAgainst + Season.Losses(Simulated(ms, r.0), teams[j].name)
    decreases |ms|
  {
    if |ms| > 0 {
      var p := PlayMatch(q, ms[0], teams, draws[0]).value;
      var next := p.1;
      SameNamesUnique(teams, next);
      forall name ensures Find(next, name) == Find(teams, name) {
        FindSameNames(next, teams, name);
      }
      var rest := Play(q, ms[1..], next, draws[1..]).value;
      var out := [p.0] + rest.0;
      assert Play(q, ms, teams, draws).value == (out, rest.1);
      assert out[1..] == rest.0;
      PlayCredits(q, ms[1..], next, draws[1..], j);
      var tail := Simulated(ms[1..], rest.0);
      if !ms[0].origCompleted {
        PlayMatchCredits(q, ms[0], teams, draws[0], j);
        assert Simulated(ms, out) == [p.0] + tail;
        assert ([p.0] + tail)[1..] == tail;
      }
    }
  }

  /**
    One trial: play the schedule, jitter the trial's wins, and credit the top four
    on the canonical roster. Returns the matches as the trial leaves them and the
    canonical roster.
   */
  function Trial(q: Curve, ms: seq<Match>, teams: seq<Team>, d: Draws): (r: Result<(seq<Match>, seq<Team>)>)
    requires Fits(d, |ms|, |teams|)
    ensures r.Ok? <==> forall m :: m in ms && !m.origCompleted ==> Season.Knows(teams, m)
    ensures r.Ok? ==> Settles(ms, r.value.0)
    ensures r.Ok? ==> SameNames(teams, r.value.1)
    ensures r.Ok? ==> forall j :: 0 <= j < |teams| ==>
      && r.value.1[j].elo == teams[j].elo
      && r.value.1[j].matchesFor == teams[j].matchesFor
      && r.value.1[j].matchesAgainst == teams[j].matchesAgainst
    ensures r.Ok? ==>
      Total(r.value.1, PlayoffsOf) == Total(teams, PlayoffsOf) + Playoffs.Min(Playoffs.PlayoffSlots, |teams|) as real
  {
    match Play(q, ms, teams, d.outcomes)
    case UnknownTeam(name) => UnknownTeam(name)
    case Ok((played, trial)) =>
      match Playoffs.PlayoffRound(teams, trial, d.jitter)
      case UnknownTeam(name) => UnknownTeam(name)
      case Ok(canonical) => Ok((played, canonical))
  }

  /** In one trial a team makes the playoffs at most once. */
  lemma TrialOncePerTeam(q: Curve, ms: seq<Match>, teams: seq<Team>, d: Draws, j: int)
    requires Fits(d, |ms|, |teams|) && UniqueNames(teams) && 0 <= j < |teams|
    requires Trial(q, ms, teams, d).Ok?
    ensures teams[j].numPlayoffs <= Trial(q, ms, teams, d).value.1[j].numPlayoffs <= teams[j].numPlayoffs + 1
  {
    var trial := Play(q, ms, teams, d.outcomes).value.1;
    Playoffs.PlayoffRoundOncePerTeam(teams, trial, d.jitter, j);
  }

  /** Matches that are the same fixtures give the same trial outcome on the canonical roster. */
  lemma TrialFixtures(q: Curve, a: seq<Match>, b: seq<Match>, teams: seq<Team>, d: Draws)
    requires Fits(d, |a|, |teams|) && SameFixtures(a, b)
    ensures Trial(q, a, teams, d).Ok? == Trial(q, b, teams, d).Ok?
    ensures Trial(q, a, teams, d).Ok? ==> Trial(q, a, teams, d).value.1 == Trial(q, b, teams, d).value.1
  {
    PlayFixtures(q, a, b, teams, d.outcomes);
  }

  /** Whether every unplayed match of `ms` names two registered teams. */
  ghost predicate Resolvable(ms: seq<Match>, teams: seq<Team>) {
    forall m :: m in ms && !m.origCompleted ==> Season.Knows(teams, m)
  }

  /** Resolvability depends only on the fixtures and the roster's names. */
  lemma ResolvableFixtures(a: seq<Match>, b: seq<Match>, ta: seq<Team>, tb: seq<Team>)
    requires SameFixtures(a, b) && SameNames(ta, tb)
    ensures Resolvable(a, ta) <==> Resolvable(b, tb)
  {
    forall name ensures Find(ta, name) == Find(tb, name) {
      FindSameNames(ta, tb, name);
    }
    if Resolvable(a, ta) {
      forall m | m in b && !m.origCompleted ensures Season.Knows(tb, m) {
        var k :| 0 <= k < |b| && b[k] == m;
        assert SameFixture(a[k], b[k]) && a[k] in a;
      }
    }
    if Resolvable(b, tb) {
      forall m | m in a && !m.origCompleted ensures Season.Knows(ta, m) {
        var k :| 0 <= k < |a| && a[k] == m;
        assert SameFixture(a[k], b[k]) && b[k] in b;
      }
    }
  }

  /**
    The forecast as written: the trials run on the caller's matches, so each trial
    sees the scores the previous one wrote, and after at least one trial every
    unplayed match reads as completed.
   */
  function SimulateSeason(q: Curve, ms: seq<Match>, teams: seq<Team>, trials: seq<Draws>): (r: Result<(seq<Match>, seq<Team>)>)
    requires forall k :: 0 <= k < |trials| ==> Fits(trials[k], |ms|, |teams|)
    ensures r.Ok? <==> |trials| == 0 || Resolvable(ms, teams)
    ensures r.Ok? && |trials| == 0 ==> r.value.0 == ms
    ensures r.Ok? && |trials| > 0 ==> Settles(ms, r.value.0)
    ensures r.Ok? ==> SameNames(teams, r.value.1)
    ensures r.Ok? ==> forall j :: 0 <= j < |teams| ==>
      && r.value.1[j].elo == teams[j].elo
      && r.value.1[j].matchesFor == teams[j].matchesFor
      && r.value.1[j].matchesAgainst == teams[j].matchesAgainst
    ensures r.Ok? ==>
      Total(r.value.1, PlayoffsOf) == Total(teams, PlayoffsOf) + (|trials| * Playoffs.Min(Playoffs.PlayoffSlots, |teams|)) as real
    decreases |trials|
  {
    if |trials| == 0 then Ok((ms, teams))
    else match Trial(q, ms, teams, trials[0])
      case UnknownTeam(name) => UnknownTeam(name)
      case Ok((played, canonical)) =>
        ResolvableFixtures(ms, played, teams, canonical);
        var r := SimulateSeason(q, played, canonical, trials[1..]);
        if r.Ok? then
          SettlesAgain(ms, played, r.value.0);
          Playoffs.RoundsCompose(teams, canonical, r.value.1, |trials[1..]|, Playoffs.Min(Playoffs.PlayoffSlots, |canonical|));
          assert |trials[1..]| + 1 == |trials|;
          r
        else r
  }

  /**
    The forecast as its comment intends ("we don't want to modify originals"):
    every trial plays on its own copy of the matches, and the caller's matches come
    back exactly as they went in.
   */
  function SimulateSeasonOnCopies(q: Curve, ms: seq<Match>, teams: seq<Team>, trials: seq<Draws>): (r: Result<(seq<Match>, seq<Team>)>)
    requires forall k :: 0 <= k < |trials| ==> Fits(trials[k], |ms|, |teams|)
    ensures r.Ok? <==> |trials| == 0 || Resolvable(ms, teams)
    ensures r.Ok? ==> r.value.0 == ms
    ensures r.Ok? ==> SameNames(teams, r.value.1)
    ensures r.Ok? ==> forall j :: 0 <= j < |teams| ==>
      && r.value.1[j].elo == teams[j].elo
      && r.value.1[j].matchesFor == teams[j].matchesFor
      && r.value.1[j].matchesAgainst == teams[j].matchesAgainst
    ensures r.Ok? ==>
      Total(r.value.1, PlayoffsOf) == Total(teams, PlayoffsOf) + (|trials| * Playoffs.Min(Playoffs.PlayoffSlots, |teams|)) as real
    decreases |trials|
  {
    if |trials| == 0 then Ok((ms, teams))
    else match Trial(q, ms, teams, trials[0])
      case UnknownTeam(name) => UnknownTeam(name)
      case Ok((_, canonical)) =>
        assert SameFixtures(ms, ms);
        ResolvableFixtures(ms, ms, teams, canonical);
        var r := SimulateSeasonOnCopies(q, ms, canonical, trials[1..]);
        if r.Ok? then
          Playoffs.RoundsCompose(teams, canonical, r.value.1, |trials[1..]|, Playoffs.Min(Playoffs.PlayoffSlots, |canonical|));
          assert |trials[1..]| + 1 == |trials|;
          r
        else r
  }

  /**
    The scores written onto the caller's matches never change the forecast: both
    versions fail together and give every team the same playoff count.
   */
  lemma {:induction false} ForecastUnaffectedByWrites(q: Curve, a: seq<Match>, b: seq<Match>, teams: seq<Team>, trials: seq<Draws>)
    requires forall k :: 0 <= k < |trials| ==> Fits(trials[k], |a|, |teams|)
    requires SameFixtures(a, b)
    ensures SimulateSeason(q, a, teams, trials).Ok? == SimulateSeasonOnCopies(q, b, teams, trials).Ok?
    ensures SimulateSeason(q, a, teams, trials).Ok? ==>
      SimulateSeason(q, a, teams, trials).value.1 == SimulateSeasonOnCopies(q, b, teams, trials).value.1
    decreases |trials|
  {
    if |trials| > 0 {
      TrialFixtures(q, a, b, teams, trials[0]);
      var t := Trial(q, a, teams, trials[0]);
      if t.Ok? {
        var played := t.value.0;
        var canonical := t.value.1;
        SimulateSeasonUnfold(q, a, teams, trials);
        OnCopiesUnfold(q, b, teams, trials);
        RestFits(q, a, teams, trials);
        SameFixturesChain(played, a, b);
        ForecastUnaffectedByWrites(q, played, b, canonical, trials[1..]);
      }
    }
  }

  lemma SameFixturesChain(a: seq<Match>, b: seq<Match>, c: seq<Match>)
    requires SameFixtures(b, a) && SameFixtures(b, c)
    ensures SameFixtures(a, c)
  {
  }

  /** The forecast after a successful first trial is the forecast of the rest on its result. */
  lemma SimulateSeasonUnfold(q: Curve, ms: seq<Match>, teams: seq<Team>, trials: seq<Draws>)
    requires forall k :: 0 <= k < |trials| ==> Fits(trials[k], |ms|, |teams|)
    requires |trials| > 0 && Trial(q, ms, teams, trials[0]).Ok?
    ensures var t := Trial(q, ms, teams, trials[0]).value;
      SimulateSeason(q, ms, teams, trials) == SimulateSeason(q, t.0, t.1, trials[1..])
  {
  }

  /** The forecast on copies after a successful first trial is the forecast of the rest on its roster. */
  lemma OnCopiesUnfold(q: Curve, ms: seq<Match>, teams: seq<Team>, trials: seq<Draws>)
    requires forall k :: 0 <= k < |trials| ==> Fits(trials[k], |ms|, |teams|)
    requires |trials| > 0 && Trial(q, ms, teams, trials[0]).Ok?
    ensures var t := Trial(q, ms, teams, trials[0]).value;
      SimulateSeasonOnCopies(q, ms, teams, trials) == SimulateSeasonOnCopies(q, ms, t.1, trials[1..])
  {
  }

  /** The trials after a successful first one fit the schedule and roster it leaves. */
  lemma RestFits(q: Curve, ms: seq<Match>, teams: seq<Team>, trials: seq<Draws>)
    requires forall k :: 0 <= k < |trials| ==> Fits(trials[k], |ms|, |teams|)
    requires |trials| > 0 && Trial(q, ms, teams, trials[0]).Ok?
    ensures var t := Trial(q, ms, teams, trials[0]).value;
      forall k :: 0 <= k < |trials[1..]| ==> Fits(trials[1..][k], |t.0|, |t.1|)
  {
    var t := Trial(q, ms, teams, trials[0]).value;
    assert |t.0| == |ms| && |t.1| == |teams|;
    forall k | 0 <= k < |trials[1..]| ensures Fits(trials[1..][k], |t.0|, |t.1|) {
      assert trials[1..][k] == trials[k + 1];
    }
  }

  /**
    Over the whole forecast a team's playoff count grows by at most the number of
    trials, so its playoff frequency is a proportion between 0 and 1.
   */
  lemma {:induction false} SimulateSeasonPerTeam(q: Curve, ms: seq<Match>, teams: seq<Team>, trials: seq<Draws>, j: int)
    requires forall k :: 0 <= k < |trials| ==> Fits(trials[k], |ms|, |teams|)
    requires UniqueNames(teams) && 0 <= j < |teams|
    requires SimulateSeason(q, ms, teams, trials).Ok?
    ensures var r := SimulateSeason(q, ms, teams, trials).value.1;
      teams[j].numPlayoffs <= r[j].numPlayoffs <= teams[j].numPlayoffs + |trials|
    decreases |trials|
  {
    if |trials| > 0 {
      var t := Trial(q, ms, teams, trials[0]).value;
      TrialOncePerTeam(q, ms, teams, trials[0], j);
      SameNamesUnique(teams, t.1);
      SimulateSeasonUnfold(q, ms, teams, trials);
      RestFits(q, ms, teams, trials);
      SimulateSeasonPerTeam(q, t.0, t.1, trials[1..], j);
    }
  }

  // ---------------------------------------------------------------------------
  // After the forecast

  /**
    `set_match_probs`: every match without an original score gets the two sides'
    expected scores from the current ratings; matches with an original score are
    left alone.
   */
  function SetMatchProbs(q: Curve, ms: seq<Match>, teams: seq<Team>): (r: Result<seq<Match>>)
    ensures r.Ok? <==> Resolvable(ms, teams)
    ensures r.Ok? ==> |r.value| == |ms|
    ensures r.Ok? ==> forall k :: 0 <= k < |ms| && ms[k].origCompleted ==> r.value[k] == ms[k]
    ensures r.Ok? ==> forall k :: 0 <= k < |ms| && !ms[k].origCompleted ==>
      var i1, i2 := Find(teams, ms[k].team1).value, Find(teams, ms[k].team2).value;
      && r.value[k] == ms[k].(t1Prob := r.value[k].t1Prob, t2Prob := r.value[k].t2Prob)
      && r.value[k].t1Prob == Expected(q, teams[i1].elo, teams[i2].elo)
      && r.value[k].t1Prob + r.value[k].t2Prob == 1.0
      && 0.0 < r.value[k].t2Prob < 1.0
    decreases |ms|
  {
    if |ms| == 0 then Ok([])
    else
      var m := ms[0];
      assert ms == [m] + ms[1..];
      var first := Price(q, m, teams);
      match first
      case UnknownTeam(name) => UnknownTeam(name)
      case Ok(updated) =>
        match SetMatchProbs(q, ms[1..], teams)
        case UnknownTeam(name) => UnknownTeam(name)
        case Ok(rest) => Ok([updated] + rest)
  }

  /** One match of `set_match_probs`. */
  function Price(q: Curve, m: Match, teams: seq<Team>): (r: Result<Match>)
    ensures r.Ok? <==> m.origCompleted || Season.Knows(teams, m)
    ensures r.Ok? && m.origCompleted ==> r.value == m
    ensures r.Ok? && !m.origCompleted ==>
      var i1, i2 := Find(teams, m.team1).value, Find(teams, m.team2).value;
      && r.value == m.(t1Prob := r.value.t1Prob, t2Prob := r.value.t2Prob)
      && r.value.t1Prob == Expected(q, teams[i1].elo, teams[i2].elo)
      && r.value.t1Prob + r.value.t2Prob == 1.0
      && 0.0 < r.value.t2Prob < 1.0
  {
    if m.origCompleted then Ok(m)
    else match (Find(teams, m.team1), Find(teams, m.team2))
      case (None, _) => UnknownTeam(m.team1)
      case (Some(_), None) => UnknownTeam(m.team2)
      case (Some(i1), Some(i2)) =>
        ExpectedComplement(q, teams[i1].elo, teams[i2].elo);
        Ok(m.(t1Prob := Expected(q, teams[i1].elo, teams[i2].elo),
              t2Prob := Expected(q, teams[i2].elo, teams[i1].elo)))
  }

  /**
    `calculate_next_season_start_elos` for one rating: keep 66% of the distance
    from 1500.
   */
  function NextSeasonElo(elo: real): (r: real)
    ensures elo >= 1500.0 ==> 1500.0 <= r <= elo
    ensures elo <= 1500.0 ==> elo <= r <= 1500.0
    ensures r == 1500.0 <==> elo == 1500.0
    ensures r - 1500.0 == 0.66 * (elo - 1500.0)
  {
    (elo - 1500.0) * 0.66 + 1500.0
  }

  /** Regressing every team's rating keeps the teams' order by rating. */
  lemma NextSeasonEloMonotonic(a: real, b: real)
    ensures a < b <==> NextSeasonElo(a) < NextSeasonElo(b)
  {
  }

  /** Next season's starting rating of every team of the roster, in roster order. */
  function NextSeasonElos(teams: seq<Team>): (r: seq<real>)
    ensures |r| == |teams|
    ensures forall j :: 0 <= j < |teams| ==>
      && (teams[j].elo >= 1500.0 ==> 1500.0 <= r[j] <= teams[j].elo)
      && (teams[j].elo <= 1500.0 ==> teams[j].elo <= r[j] <= 1500.0)
      && r[j] - 1500.0 == 0.66 * (teams[j].elo - 1500.0)
  {
    seq(|teams|, j requires 0 <= j < |teams| => NextSeasonElo(teams[j].elo))
  }

  // ---------------------------------------------------------------------------
  // What the writes leave behind

  /** Two evenly rated teams and one unplayed match between them. */
  function EvenTeams(): seq<Team> {
    [Team("froyotech", 0, 0, 1500.0, 0), Team("Ascent", 0, 0, 1500.0, 0)]
  }

  function PendingFixture(): Match {
    NewMatch("froyotech", "Ascent", "cp_process", 8)
  }

  /** One trial's draws: 0.3 for the match, no jitter. */
  function LowDraw(): Draws {
    Draws([0.3], [0.0, 0.0])
  }

  /** A forecast of one trial is that trial; on copies, the caller's matches come back unchanged. */
  lemma SingleTrial(q: Curve, ms: seq<Match>, teams: seq<Team>, d: Draws)
    requires Fits(d, |ms|, |teams|) && Trial(q, ms, teams, d).Ok?
    ensures SimulateSeason(q, ms, teams, [d]) == Trial(q, ms, teams, d)
    ensures SimulateSeasonOnCopies(q, ms, teams, [d]) == Ok((ms, Trial(q, ms, teams, d).value.1))
  {
    SingleTrialAsWritten(q, ms, teams, d);
    SingleTrialOnCopies(q, ms, teams, d);
  }

  lemma SingleTrialAsWritten(q: Curve, ms: seq<Match>, teams: seq<Team>, d: Draws)
    requires Fits(d, |ms|, |teams|)
    ensures SimulateSeason(q, ms, teams, [d]) == Trial(q, ms, teams, d)
  {
    assert [d][0] == d && [d][1..] == [];
    match Trial(q, ms, teams, d)
    case UnknownTeam(_) =>
    case Ok((played, canonical)) => NoTrials(q, played, canonical);
  }

  /** A forecast of no trials returns the matches and roster it was given. */
  lemma NoTrials(q: Curve, ms: seq<Match>, teams: seq<Team>)
    ensures SimulateSeason(q, ms, teams, []) == Ok((ms, teams))
  {
  }

  lemma SingleTrialOnCopies(q: Curve, ms: seq<Match>, teams: seq<Team>, d: Draws)
    requires Fits(d, |ms|, |teams|)
    ensures Trial(q, ms, teams, d).Ok? ==>
      SimulateSeasonOnCopies(q, ms, teams, [d]) == Ok((ms, Trial(q, ms, teams, d).value.1))
  {
    assert [d][0] == d && [d][1..] == [];
    match Trial(q, ms, teams, d)
    case UnknownTeam(_) =>
    case Ok((_, canonical)) => NoTrialsOnCopies(q, ms, canonical);
  }

  /** A forecast on copies of no trials returns the matches and roster it was given. */
  lemma NoTrialsOnCopies(q: Curve, ms: seq<Match>, teams: seq<Team>)
    ensures SimulateSeasonOnCopies(q, ms, teams, []) == Ok((ms, teams))
  {
  }

  /**
    One trial of the forecast as written, with the draw 0.3 below team1's expected
    0.5, leaves the caller's unplayed match completed 5-0 for froyotech.
   */
  lemma WritesScoreOntoCallersMatch(q: Curve)
    ensures var r := SimulateSeason(q, [PendingFixture()], EvenTeams(), [LowDraw()]);
      && r.Ok?
      && r.value.0 == [SetScores(PendingFixture(), 5, 0)]
      && !PendingFixture().completed && SetScores(PendingFixture(), 5, 0).completed
  {
    PendingTrial(q);
    SingleTrial(q, [PendingFixture()], EvenTeams(), LowDraw());
  }

  /** The single trial writes team1's 5-0 win onto the match and credits the two sides. */
  lemma PendingTrial(q: Curve)
    ensures var t := Trial(q, [PendingFixture()], EvenTeams(), LowDraw());
      && t.Ok?
      && t.value.0 == [SetScores(PendingFixture(), 5, 0)]
      && SameNames(EvenTeams(), t.value.1)
      && t.value.1[0].elo == 1500.0 && t.value.1[1].elo == 1500.0
  {
    var m, teams := PendingFixture(), EvenTeams();
    assert Find(teams, "froyotech") == Some(0) && Find(teams, "Ascent") == Some(1);
    assert Expected(q, 1500.0, 1500.0) == 0.5;
    assert PlayMatch(q, m, teams, 0.3) == Ok((SetScores(m, 5, 0), Credit(teams, 0, 1)));
    PlaySingle(q, m, teams, 0.3);
    var round := Playoffs.PlayoffRound(teams, Credit(teams, 0, 1), [0.0, 0.0]);
    assert round.Ok?;
    assert Trial(q, [m], teams, LowDraw()) == Ok(([SetScores(m, 5, 0)], round.value));
  }

  /** A one-match schedule is played by playing its match. */
  lemma PlaySingle(q: Curve, m: Match, teams: seq<Team>, draw: real)
    requires PlayMatch(q, m, teams, draw).Ok?
    ensures Play(q, [m], teams, [draw]) == Ok(([PlayMatch(q, m, teams, draw).value.0], PlayMatch(q, m, teams, draw).value.1))
  {
    var played := PlayMatch(q, m, teams, draw).value;
    assert [m][0] == m && [draw][0] == draw;
    assert [m][1..] == [] && [draw][1..] == [];
    assert Play(q, [], played.1, []) == Ok(([], played.1));
    assert [played.0] + [] == [played.0];
  }

  /**
    Followed by `set_match_probs`, that match is left completed, with froyotech as
    winner, yet with probabilities 0.5 and 0.5: it no longer satisfies `Consistent`.
   */
  lemma ForecastLeavesInconsistentMatch(q: Curve)
    ensures var r := SimulateSeason(q, [PendingFixture()], EvenTeams(), [LowDraw()]);
      && r.Ok?
      && SetMatchProbs(q, r.value.0, r.value.1) == Ok([SetScores(PendingFixture(), 5, 0).(t1Prob := 0.5, t2Prob := 0.5)])
    ensures var m := SetScores(PendingFixture(), 5, 0).(t1Prob := 0.5, t2Prob := 0.5);
      m.completed && m.winner == "froyotech" && !Consistent(m)
  {
    PendingTrial(q);
    SingleTrial(q, [PendingFixture()], EvenTeams(), LowDraw());
    PriceScored(q, Trial(q, [PendingFixture()], EvenTeams(), LowDraw()).value.1);
  }

  /** On evenly rated teams named as in `EvenTeams`, the scored match gets even probabilities. */
  lemma PriceScored(q: Curve, after: seq<Team>)
    requires SameNames(EvenTeams(), after) && after[0].elo == 1500.0 && after[1].elo == 1500.0
    ensures SetMatchProbs(q, [SetScores(PendingFixture(), 5, 0)], after)
         == Ok([SetScores(PendingFixture(), 5, 0).(t1Prob := 0.5, t2Prob := 0.5)])
  {
    var played := SetScores(PendingFixture(), 5, 0);
    assert Find(after, "froyotech") == Some(0) && Find(after, "Ascent") == Some(1);
    ExpectedComplement(q, 1500.0, 1500.0);
    var priced := played.(t1Prob := 0.5, t2Prob := 0.5);
    assert Price(q, played, after) == Ok(priced);
    assert [played][0] == played && [played][1..] == [];
    assert SetMatchProbs(q, [], after) == Ok([]);
    assert [priced] + [] == [priced];
  }

  /** A one-match schedule whose match is unplayed and consistent. */
  ghost predicate StillPending(probs: Result<seq<Match>>) {
    probs.Ok? && |probs.value| == 1 && !probs.value[0].completed && Consistent(probs.value[0])
  }

  /** The forecast on copies leaves the caller's match as it was: unplayed, with consistent probabilities. */
  lemma CopiesLeaveMatchPending(q: Curve)
    ensures var r := SimulateSeasonOnCopies(q, [PendingFixture()], EvenTeams(), [LowDraw()]);
      && r.Ok?
      && r.value.0 == [PendingFixture()]
      && StillPending(SetMatchProbs(q, r.value.0, r.value.1))
  {
    var after := Trial(q, [PendingFixture()], EvenTeams(), LowDraw()).value.1;
    CopiesRun(q);
    PendingTrial(q);
    PricePending(q, after);
  }

  lemma CopiesRun(q: Curve)
    ensures var t := Trial(q, [PendingFixture()], EvenTeams(), LowDraw());
      t.Ok? && SimulateSeasonOnCopies(q, [PendingFixture()], EvenTeams(), [LowDraw()]) == Ok(([PendingFixture()], t.value.1))
  {
    PendingTrial(q);
    SingleTrial(q, [PendingFixture()], EvenTeams(), LowDraw());
  }

  /** On a roster with the same names as `EvenTeams`, the pending match gets probabilities but stays unscored. */
  lemma PricePending(q: Curve, after: seq<Team>)
    requires SameNames(EvenTeams(), after)
    ensures StillPending(SetMatchProbs(q, [PendingFixture()], after))
  {
    var m := PendingFixture();
    assert Find(after, "froyotech") == Some(0) && Find(after, "Ascent") == Some(1);
    assert Season.Knows(after, m);
    assert Resolvable([m], after);
  }
}

=== FILE: history.dfy ===
/**
  `calculate_elo`: replays the recorded results in list order through the Elo step,
  overwriting both teams' ratings after each one.
 */
module History {
  import opened Model
  import opened Elo
  import Season
  import Sorting

  /** No match pits a team against itself. */
  ghost predicate NoSelfMatches(ms: seq<Match>) {
    forall m :: m in ms ==> m.team1 != m.team2
  }

  /**
    Writes the Elo step's two new ratings back: team1's first, then team2's (so a
    team playing itself ends with team2's rating, as in the scripts).
   */
  function Rate(q: Curve, teams: seq<Team>, i1: nat, i2: nat, t1Prob: real, t2Prob: real): (r: seq<Team>)
    requires i1 < |teams| && i2 < |teams|
    ensures SameNames(teams, r)
    ensures forall j :: 0 <= j < |r| ==>
      && r[j].matchesFor == teams[j].matchesFor
      && r[j].matchesAgainst == teams[j].matchesAgainst
      && r[j].numPlayoffs == teams[j].numPlayoffs
      && (j != i1 && j != i2 ==> r[j].elo == teams[j].elo)
    ensures i1 != i2 ==>
      (r[i1].elo, r[i2].elo) == UpdateElos(q, teams[i1].elo, teams[i2].elo, t1Prob, t2Prob)
    ensures i1 == i2 ==> r[i1].elo == UpdateElos(q, teams[i1].elo, teams[i2].elo, t1Prob, t2Prob).1
    ensures i1 != i2 && t1Prob + t2Prob == 1.0 ==> Total(r, EloOf) == Total(teams, EloOf)
    ensures Total(r, WinsOf) == Total(teams, WinsOf) && Total(r, LossesOf) == Total(teams, LossesOf)
    ensures Total(r, PlayoffsOf) == Total(teams, PlayoffsOf)
  {
    var (e1, e2) := UpdateElos(q, teams[i1].elo, teams[i2].elo, t1Prob, t2Prob);
    var first := teams[i1 := teams[i1].(elo := e1)];
    var r := first[i2 := first[i2].(elo := e2)];
    TotalUpdate(teams, i1, first[i1], EloOf);
    TotalUpdate(first, i2, r[i2], EloOf);
    RatingsOnlyDiffer(teams, r);
    r
  }

  /**
    The replay: each recorded result moves both teams' ratings by the Elo step with
    the match's realised 1/0 probabilities; unplayed matches are skipped. A side
    missing from the roster is the script's `KeyError`.
   */
  function CalculateElo(q: Curve, ms: seq<Match>, teams: seq<Team>): (r: Result<seq<Team>>)
    ensures r.Ok? <==> forall m :: m in ms && m.completed ==> Season.Knows(teams, m)
    ensures r.Ok? ==> SameNames(teams, r.value)
    ensures r.Ok? ==> forall j :: 0 <= j < |teams| ==>
      && r.value[j].matchesFor == teams[j].matchesFor
      && r.value[j].matchesAgainst == teams[j].matchesAgainst
      && r.value[j].numPlayoffs == teams[j].numPlayoffs
    ensures r.Ok? && NoSelfMatches(ms) && (forall m :: m in ms ==> Consistent(m)) ==>
      Total(r.value, EloOf) == Total(teams, EloOf)
    decreases |ms|
  {
    if |ms| == 0 then Ok(teams)
    else
      var m := ms[0];
      assert ms == [m] + ms[1..];
      if !m.completed then CalculateElo(q, ms[1..], teams)
      else match (Find(teams, m.team1), Find(teams, m.team2))
        case (None, _) => UnknownTeam(m.team1)
        case (Some(_), None) => UnknownTeam(m.team2)
        case (Some(i1), Some(i2)) =>
          var rated := Rate(q, teams, i1, i2, m.t1Prob, m.t2Prob);
          assert m in ms;
          forall name ensures Find(rated, name) == Find(teams, name) {
            FindSameNames(rated, teams, name);
          }
          CalculateElo(q, ms[1..], rated)
  }

  /** The replay of a schedule that starts with a resolvable result: rate it, then go on. */
  lemma CalculateEloFirst(q: Curve, ms: seq<Match>, teams: seq<Team>)
    requires |ms| > 0 && ms[0].completed && Season.Knows(teams, ms[0])
    ensures CalculateElo(q, ms, teams) == (
      var i1, i2 := Find(teams, ms[0].team1).value, Find(teams, ms[0].team2).value;
      CalculateElo(q, ms[1..], Rate(q, teams, i1, i2, ms[0].t1Prob, ms[0].t2Prob)))
  {
  }

  /** A schedule of unplayed matches leaves the ratings alone. */
  lemma {:induction false} CalculateEloPending(q: Curve, ms: seq<Match>, teams: seq<Team>)
    requires forall m :: m in ms ==> !m.completed
    ensures CalculateElo(q, ms, teams) == Ok(teams)
    decreases |ms|
  {
    if |ms| > 0 {
      assert ms[0] in ms;
      assert forall m :: m in ms[1..] ==> m in ms;
      CalculateEloPending(q, ms[1..], teams);
    }
  }

  /** The recorded results of `ms`, in order. */
  function Completed(ms: seq<Match>): (r: seq<Match>)
    ensures forall m :: m in r <==> m in ms && m.completed
  {
    if |ms| == 0 then []
    else
      assert ms == [ms[0]] + ms[1..];
      (if ms[0].completed then [ms[0]] else []) + Completed(ms[1..])
  }

  /** Unplayed matches leave every rating where it was: only the recorded results matter. */
  lemma {:induction false} CalculateEloSkipsPending(q: Curve, ms: seq<Match>, teams: seq<Team>)
    ensures CalculateElo(q, ms, teams) == CalculateElo(q, Completed(ms), teams)
    decreases |ms|
  {
    if |ms| > 0 {
      var m := ms[0];
      if !m.completed {
        assert Completed(ms) == Completed(ms[1..]);
        CalculateEloSkipsPending(q, ms[1..], teams);
      } else {
        var c := Completed(ms);
        assert c == [m] + Completed(ms[1..]);
        assert c[0] == m && c[1..] == Completed(ms[1..]);
        assert |c| > 0;
        match (Find(teams, m.team1), Find(teams, m.team2))
        case (None, _) =>
        case (Some(_), None) =>
        case (Some(i1), Some(i2)) =>
          CalculateEloSkipsPending(q, ms[1..], Rate(q, teams, i1, i2, m.t1Prob, m.t2Prob));
      }
    }
  }

  /**
    The replay is a left fold: replaying `a + b` is replaying `a`, then replaying `b`
    from the ratings `a` left behind.
   */
  lemma {:induction false} CalculateEloAppend(q: Curve, a: seq<Match>, b: seq<Match>, teams: seq<Team>)
    ensures CalculateElo(q, a + b, teams) ==
      match CalculateElo(q, a, teams)
      case Ok(mid) => CalculateElo(q, b, mid)
      case UnknownTeam(name) => UnknownTeam(name)
    decreases |a|
  {
    if |a| == 0 {
      assert a + b == b;
    } else {
      var m := a[0];
      assert (a + b)[0] == m && (a + b)[1..] == a[1..] + b;
      if !m.completed {
        CalculateEloAppend(q, a[1..], b, teams);
      } else {
        match (Find(teams, m.team1), Find(teams, m.team2))
        case (None, _) =>
        case (Some(_), None) =>
        case (Some(i1), Some(i2)) =>
          CalculateEloAppend(q, a[1..], b, Rate(q, teams, i1, i2, m.t1Prob, m.t2Prob));
      }
    }
  }

  /** After a successful load the replay cannot fail: both sides of every recorded result are registered. */
  lemma LoadedSeasonReplays(q: Curve, fs: seq<Season.Fixture>, starting: map<string, real>, markOriginal: bool)
    requires Season.ReadSeason(fs, starting, markOriginal).Ok?
    ensures var s := Season.ReadSeason(fs, starting, markOriginal).value;
      CalculateElo(q, s.matches, s.teams).Ok?
  {
    Season.LoadKnowsResults(fs, starting, markOriginal, false);
  }

  /**
    With both sides of every match registered, loading never fails and neither does
    the replay of any season.
   */
  lemma RegisteredSeasonReplays(q: Curve, fs: seq<Season.Fixture>, starting: map<string, real>, markOriginal: bool)
    ensures var s := Season.ReadSeasonRegisteringBoth(fs, starting, markOriginal).value;
      CalculateElo(q, s.matches, s.teams).Ok?
  {
  }

  /** The schedule rows of a two-team season with one result, on day 1, and one unplayed match on day 8. */
  function OneResultRows(): seq<Season.Fixture> {
    [Season.Fixture("froyotech", "Ascent", "cp_process", 1, Some((5, 0))),
     Season.Fixture("Ascent", "froyotech", "koth_product", 8, None)]
  }

  /**
    Both teams start at 1500; after the replay the winner is at 1500 + K/2 and the
    loser at 1500 - K/2, whatever the curve.
   */
  lemma OneResultSeason(q: Curve, rows: seq<Season.Fixture>)
    requires rows == OneResultRows()
    ensures var s := Season.ReadSeason(rows, Season.RollingStartingElos, false);
      && s.Ok?
      && CalculateElo(q, s.value.matches, s.value.teams)
         == Ok([Team("froyotech", 1, 0, 1500.0 + K / 2.0, 0), Team("Ascent", 0, 1, 1500.0 - K / 2.0, 0)])
  {
    OneResultLoaded();
    OneResultReplay(q, Season.MakeMatches(OneResultRows(), false));
  }

  lemma OneResultReplay(q: Curve, ms: seq<Match>)
    requires ms == Season.MakeMatches(OneResultRows(), false)
    ensures CalculateElo(q, ms, [Team("froyotech", 1, 0, 1500.0, 0), Team("Ascent", 0, 1, 1500.0, 0)])
         == Ok([Team("froyotech", 1, 0, 1500.0 + K / 2.0, 0), Team("Ascent", 0, 1, 1500.0 - K / 2.0, 0)])
  {
    OneResultMatches(ms);
    ReplayOneWin(q, ms);
  }

  /** The two matches built from the rows: froyotech's recorded win, then an unplayed match. */
  lemma OneResultMatches(ms: seq<Match>)
    requires ms == Season.MakeMatches(OneResultRows(), false)
    ensures |ms| == 2 && !ms[1].completed
    ensures ms[0].completed && ms[0].t1Prob == 1.0 && ms[0].t2Prob == 0.0
    ensures ms[0].team1 == "froyotech" && ms[0].team2 == "Ascent" && ms[0].winner == ms[0].team1
    ensures ms[1].team1 == "Ascent"
  {
  }

  /** Any schedule of froyotech's win over Ascent followed by an unplayed match replays to the same ratings. */
  lemma {:induction false} ReplayOneWin(q: Curve, ms: seq<Match>)
    requires |ms| == 2 && !ms[1].completed
    requires ms[0].completed && ms[0].t1Prob == 1.0 && ms[0].t2Prob == 0.0
    requires ms[0].team1 == "froyotech" && ms[0].team2 == "Ascent"
    ensures CalculateElo(q, ms, [Team("froyotech", 1, 0, 1500.0, 0), Team("Ascent", 0, 1, 1500.0, 0)])
         == Ok([Team("froyotech", 1, 0, 1500.0 + K / 2.0, 0), Team("Ascent", 0, 1, 1500.0 - K / 2.0, 0)])
  {
    var tallied := [Team("froyotech", 1, 0, 1500.0, 0), Team("Ascent", 0, 1, 1500.0, 0)];
    assert Find(tallied, "froyotech") == Some(0) && Find(tallied, "Ascent") == Some(1);
    CalculateEloFirst(q, ms, tallied);
    UpdateElosEvenMatch(q, 1500.0);
    var rated := Rate(q, tallied, 0, 1, 1.0, 0.0);
    assert rated == [Team("froyotech", 1, 0, 1500.0 + K / 2.0, 0), Team("Ascent", 0, 1, 1500.0 - K / 2.0, 0)];
    assert ms[1..] == [ms[1]];
    CalculateEloPending(q, ms[1..], rated);
  }

  lemma OneResultLoaded()
    ensures Season.ReadSeason(OneResultRows(), Season.RollingStartingElos, false)
         == Ok(Season.SeasonData(Season.MakeMatches(OneResultRows(), false),
                                 [Team("froyotech", 1, 0, 1500.0, 0), Team("Ascent", 0, 1, 1500.0, 0)]))
  {
    var ms := Season.MakeMatches(OneResultRows(), false);
    OneResultSchedule();
    OneResultRegistered(ms);
    OneResultTally(ms);
    Season.LoadSteps(OneResultRows(), Season.RollingStartingElos, false, false);
    Season.ReadSeasonIsLoad(OneResultRows(), Season.RollingStartingElos, false);
  }

  /** Worked example: the one-result season's matches tally to one win for froyotech and one loss for Ascent. */
  lemma OneResultTally(ms: seq<Match>)
    requires ms == Season.MakeMatches(OneResultRows(), false)
    ensures Season.Tally(ms, [Team("froyotech", 0, 0, 1500.0, 0), Team("Ascent", 0, 0, 1500.0, 0)])
         == Ok([Team("froyotech", 1, 0, 1500.0, 0), Team("Ascent", 0, 1, 1500.0, 0)])
  {
    OneResultMatches(ms);
    TallyOneWin(ms);
  }

  /** Tallying froyotech's win over Ascent followed by an unplayed match. */
  lemma {:induction false} TallyOneWin(ms: seq<Match>)
    requires |ms| == 2 && !ms[1].completed && ms[0].completed
    requires ms[0].team1 == "froyotech" && ms[0].team2 == "Ascent" && ms[0].winner == ms[0].team1
    ensures Season.Tally(ms, [Team("froyotech", 0, 0, 1500.0, 0), Team("Ascent", 0, 0, 1500.0, 0)])
         == Ok([Team("froyotech", 1, 0, 1500.0, 0), Team("Ascent", 0, 1, 1500.0, 0)])
  {
    var registered := [Team("froyotech", 0, 0, 1500.0, 0), Team("Ascent", 0, 0, 1500.0, 0)];
    assert Find(registered, "froyotech") == Some(0) && Find(registered, "Ascent") == Some(1);
    Season.TallyFirst(ms, registered);
    var credited := Credit(registered, 0, 1);
    assert credited == [Team("froyotech", 1, 0, 1500.0, 0), Team("Ascent", 0, 1, 1500.0, 0)];
    assert ms[1..] == [ms[1]];
    Season.TallyPending(ms[1..], credited);
  }

  lemma OneResultSchedule()
    ensures Season.Schedule(OneResultRows(), false) == Season.MakeMatches(OneResultRows(), false)
  {
    var built := Season.MakeMatches(OneResultRows(), false);
    assert built[1..][1..] == [];
    assert Sorting.Sort(built[1..], Season.DateKey) == [built[1]];
  }

  lemma OneResultRegistered(ms: seq<Match>)
    requires ms == Season.MakeMatches(OneResultRows(), false)
    ensures Season.Register(ms, Season.RollingStartingElos, [], false)
         == [Team("froyotech", 0, 0, 1500.0, 0), Team("Ascent", 0, 0, 1500.0, 0)]
  {
    OneResultMatches(ms);
    RegisterTwo(ms);
  }

  /** Registering the home sides of two matches, froyotech's and then Ascent's, from an empty roster. */
  lemma {:induction false} RegisterTwo(ms: seq<Match>)
    requires |ms| == 2 && ms[0].team1 == "froyotech" && ms[1].team1 == "Ascent"
    ensures Season.Register(ms, Season.RollingStartingElos, [], false)
         == [Team("froyotech", 0, 0, 1500.0, 0), Team("Ascent", 0, 0, 1500.0, 0)]
  {
    var st := Season.RollingStartingElos;
    var one := Season.Enrol([], st, "froyotech");
    assert one == [Team("froyotech", 0, 0, 1500.0, 0)];
    assert Find(one, "Ascent") == None;
    var two := Season.Enrol(one, st, "Ascent");
    assert two == [Team("froyotech", 0, 0, 1500.0, 0), Team("Ascent", 0, 0, 1500.0, 0)];
    assert ms[1..][1..] == [];
    assert Season.Register(ms[1..][1..], st, two, false) == two;
    assert Season.Register(ms[1..], st, one, false) == two;
  }
}

=== FILE: model.dfy ===
/**
  The two records both scripts share: a scheduled `Match` and a `Team`, plus the
  name-keyed roster the scripts keep in a dict.

  The roster is a sequence of teams in registration order (the dict's insertion
  order, which `teams.values()` iterates), with a name lookup `Find`; a lookup of a
  name that was never registered is Python's `KeyError`, modelled as the
  `UnknownTeam` failure.
 */
module Model {

  datatype Option<T> = None | Some(value: T)

  /** Either a value, or the `KeyError` raised when a team name is not in the roster. */
  datatype Result<T> = Ok(value: T) | UnknownTeam(name: string)

  /** Dates are compared only for ordering, so an integer timestamp stands for them. */
  type Date = int

  datatype Match = Match(
    team1: string,
    team2: string,
    mapName: string,
    date: Date,
    completed: bool,
    origCompleted: bool,
    team1Score: int,
    team2Score: int,
    winner: string,
    t1Prob: real,
    t2Prob: real)

  datatype Team = Team(
    name: string,
    matchesFor: int,
    matchesAgainst: int,
    elo: real,
    numPlayoffs: int)

  /** The rating a team starts with unless a starting rating is supplied. */
  const DefaultElo: real := 1500.0

  /** The probabilities of a match form a distribution over its two sides. */
  ghost predicate ValidProbs(m: Match) {
    0.0 <= m.t1Prob <= 1.0 && 0.0 <= m.t2Prob <= 1.0 && m.t1Prob + m.t2Prob == 1.0
  }

  /**
    A match whose result is recorded names one of its sides as winner, and its
    probabilities collapse to the realised outcome: 1 for the winner, 0 for the loser.
   */
  ghost predicate Consistent(m: Match) {
    && ValidProbs(m)
    && (m.completed ==>
          && (m.t1Prob == 1.0 || m.t1Prob == 0.0)
          && (m.t1Prob == 1.0 <==> m.team1Score > m.team2Score)
          && (m.t1Prob == 1.0 ==> m.winner == m.team1)
          && (m.t1Prob == 0.0 ==> m.winner == m.team2))
  }

  /** `Match.__init__`: a scheduled match with no result yet and even odds. */
  function NewMatch(team1: string, team2: string, mapName: string, date: Date): (m: Match)
    ensures m.team1 == team1 && m.team2 == team2 && m.mapName == mapName && m.date == date
    ensures !m.completed && !m.origCompleted
    ensures m.team1Score == 0 && m.team2Score == 0
    ensures m.t1Prob == 0.5 && m.t2Prob == 0.5
    ensures Consistent(m)
  {
    Match(team1, team2, mapName, date, false, false, 0, 0, "", 0.5, 0.5)
  }

  /**
    `Match.set_scores`: records a final score. Team1 wins only on a strictly
    higher score, so an equal score is credited to team2.
   */
  function SetScores(m: Match, t1Score: int, t2Score: int): (r: Match)
    ensures r.completed && r.team1Score == t1Score && r.team2Score == t2Score
    ensures Consistent(r)
    ensures r.t1Prob == 1.0 <==> t1Score > t2Score
    ensures t1Score > t2Score ==> r.winner == m.team1
    ensures t1Score <= t2Score ==> r.winner == m.team2
    ensures r.team1 == m.team1 && r.team2 == m.team2 && r.mapName == m.mapName && r.date == m.date
    ensures r.origCompleted == m.origCompleted
  {
    var t1Prob := if t1Score > t2Score then 1.0 else 0.0;
    m.(completed := true,
       team1Score := t1Score,
       team2Score := t2Score,
       winner := if t1Score > t2Score then m.team1 else m.team2,
       t1Prob := t1Prob,
       t2Prob := 1.0 - t1Prob)
  }

  /** Recording a score twice keeps only the second one: no trace of the first remains. */
  lemma SetScoresOverwrites(m: Match, a1: int, a2: int, b1: int, b2: int)
    ensures SetScores(SetScores(m, a1, a2), b1, b2) == SetScores(m, b1, b2)
  {
  }

  /** `Team.__init__`: a new team at the default rating with empty tallies. */
  function NewTeam(name: string): (t: Team)
    ensures t.name == name && t.elo == DefaultElo
    ensures t.matchesFor == 0 && t.matchesAgainst == 0 && t.numPlayoffs == 0
  {
    Team(name, 0, 0, DefaultElo, 0)
  }

  // ---------------------------------------------------------------------------
  // The roster

  /** No two registered teams share a name: the roster is a function of names. */
  ghost predicate UniqueNames(teams: seq<Team>) {
    forall i, j :: 0 <= i < j < |teams| ==> teams[i].name != teams[j].name
  }

  /** Two rosters list the same teams in the same order. */
  ghost predicate SameNames(a: seq<Team>, b: seq<Team>) {
    |a| == |b| && forall i :: 0 <= i < |a| ==> a[i].name == b[i].name
  }

  /** `name in teams`: the position of the team called `name`, if registered. */
  function Find(teams: seq<Team>, name: string): (r: Option<nat>)
    ensures r.Some? ==> r.value < |teams| && teams[r.value].name == name
    ensures r.None? <==> forall i :: 0 <= i < |teams| ==> teams[i].name != name
  {
    if |teams| == 0 then None
    else if teams[0].name == name then Some(0)
    else match Find(teams[1..], name)
      case None => None
      case Some(i) => Some(i + 1)
  }

  /** In a roster with unique names, the lookup finds exactly the team of that name. */
  lemma FindUnique(teams: seq<Team>, j: int)
    requires UniqueNames(teams) && 0 <= j < |teams|
    ensures Find(teams, teams[j].name) == Some(j)
  {
    var r := Find(teams, teams[j].name);
    assert r.Some?;
  }

  /** Uniqueness of names carries over to a roster with the same names. */
  lemma SameNamesUnique(a: seq<Team>, b: seq<Team>)
    requires SameNames(a, b) && UniqueNames(a)
    ensures UniqueNames(b)
  {
    forall i, j | 0 <= i < j < |b| ensures b[i].name != b[j].name {
      assert a[i].name == b[i].name && a[j].name == b[j].name;
    }
  }

  /** Lookups agree on rosters with the same names. */
  lemma FindSameNames(a: seq<Team>, b: seq<Team>, name: string)
    requires SameNames(a, b)
    ensures Find(a, name) == Find(b, name)
  {
    if |a| > 0 && a[0].name != name {
      FindSameNames(a[1..], b[1..], name);
    }
  }

  /** The sum of `f` over the roster. */
  function Total(teams: seq<Team>, f: Team -> real): real {
    if |teams| == 0 then 0.0 else f(teams[0]) + Total(teams[1..], f)
  }

  /** Replacing one team changes a total by exactly that team's difference. */
  lemma {:induction false} TotalUpdate(teams: seq<Team>, i: int, t: Team, f: Team -> real)
    requires 0 <= i < |teams|
    ensures Total(teams[i := t], f) == Total(teams, f) - f(teams[i]) + f(t)
  {
    if i > 0 {
      assert teams[i := t][1..] == teams[1..][i - 1 := t];
      TotalUpdate(teams[1..], i - 1, t, f);
    }
  }

  /** Totals agree on rosters that agree on `f` team by team. */
  lemma {:induction false} TotalAgree(a: seq<Team>, b: seq<Team>, f: Team -> real)
    requires |a| == |b|
    requires forall i :: 0 <= i < |a| ==> f(a[i]) == f(b[i])
    ensures Total(a, f) == Total(b, f)
  {
    if |a| > 0 {
      TotalAgree(a[1..], b[1..], f);
    }
  }

  /** Rosters that differ only in ratings have the same tallies and playoff counts in total. */
  lemma RatingsOnlyDiffer(a: seq<Team>, b: seq<Team>)
    requires |a| == |b|
    requires forall j :: 0 <= j < |a| ==> b[j] == a[j].(elo := b[j].elo)
    ensures Total(b, WinsOf) == Total(a, WinsOf)
    ensures Total(b, LossesOf) == Total(a, LossesOf)
    ensures Total(b, PlayoffsOf) == Total(a, PlayoffsOf)
  {
    TotalAgree(a, b, WinsOf);
    TotalAgree(a, b, LossesOf);
    TotalAgree(a, b, PlayoffsOf);
  }

  /**
    Credits one result: the team at `w` gets a match for, then the team at `l` a
    match against (the same team gets both when a side plays itself).
   */
  function Credit(teams: seq<Team>, w: nat, l: nat): (r: seq<Team>)
    requires w < |teams| && l < |teams|
    ensures SameNames(teams, r)
    ensures forall j :: 0 <= j < |r| ==>
      && r[j].elo == teams[j].elo
      && r[j].numPlayoffs == teams[j].numPlayoffs
      && r[j].matchesFor == teams[j].matchesFor + (if j == w then 1 else 0)
      && r[j].matchesAgainst == teams[j].matchesAgainst + (if j == l then 1 else 0)
    ensures Total(r, WinsOf) == Total(teams, WinsOf) + 1.0
    ensures Total(r, LossesOf) == Total(teams, LossesOf) + 1.0
    ensures Total(r, EloOf) == Total(teams, EloOf)
    ensures Total(r, PlayoffsOf) == Total(teams, PlayoffsOf)
  {
    var won := teams[w := teams[w].(matchesFor := teams[w].matchesFor + 1)];
    var r := won[l := won[l].(matchesAgainst := won[l].matchesAgainst + 1)];
    TotalUpdate(teams, w, won[w], WinsOf);
    TotalUpdate(won, l, r[l], WinsOf);
    TotalUpdate(teams, w, won[w], LossesOf);
    TotalUpdate(won, l, r[l], LossesOf);
    TotalUpdate(teams, w, won[w], EloOf);
    TotalUpdate(won, l, r[l], EloOf);
    TotalUpdate(teams, w, won[w], PlayoffsOf);
    TotalUpdate(won, l, r[l], PlayoffsOf);
    r
  }

  function EloOf(t: Team): real { t.elo }
  function WinsOf(t: Team): real { t.matchesFor as real }
  function LossesOf(t: Team): real { t.matchesAgainst as real }
  function PlayoffsOf(t: Team): real { t.numPlayoffs as real }
}

=== FILE: playoffs.dfy ===
/**
  The end of a simulated trial, shared by both simulation policies: rank the
  trial's teams by matches won, descending (`sorted(..., reverse=True)`, stable), and
  give each of the first four one more playoff appearance on the canonical team of
  the same name (`orig_teams[team.name].num_playoffs += 1`).
 */
module Playoffs {
  import opened Model
  import Sorting

  /** How many teams make the playoffs in a trial. */
  const PlayoffSlots: nat := 4

  function Min(a: nat, b: nat): nat { if a < b then a else b }

  /** One more trial adds one more round of `slots` appearances. */
  lemma MoreTrials(n: nat, slots: nat)
    ensures ((n + 1) * slots) as real == slots as real + (n * slots) as real
  {
    assert (n + 1) * slots == slots + n * slots;
  }

  /** One round followed by `n` more keeps ratings and tallies and adds `n + 1` rounds of appearances. */
  lemma RoundsCompose(teams: seq<Team>, next: seq<Team>, r: seq<Team>, n: nat, slots: nat)
    requires SameNames(teams, next) && SameNames(next, r)
    requires forall j :: 0 <= j < |teams| ==>
      next[j].elo == teams[j].elo && next[j].matchesFor == teams[j].matchesFor && next[j].matchesAgainst == teams[j].matchesAgainst
    requires forall j :: 0 <= j < |next| ==>
      r[j].elo == next[j].elo && r[j].matchesFor == next[j].matchesFor && r[j].matchesAgainst == next[j].matchesAgainst
    requires Total(next, PlayoffsOf) == Total(teams, PlayoffsOf) + slots as real
    requires Total(r, PlayoffsOf) == Total(next, PlayoffsOf) + (n * slots) as real
    ensures SameNames(teams, r)
    ensures forall j :: 0 <= j < |teams| ==>
      r[j].elo == teams[j].elo && r[j].matchesFor == teams[j].matchesFor && r[j].matchesAgainst == teams[j].matchesAgainst
    ensures Total(r, PlayoffsOf) == Total(teams, PlayoffsOf) + ((n + 1) * slots) as real
  {
    MoreTrials(n, slots);
  }

  /** A trial team with the score it is ranked by (its wins, plus any tie-breaking jitter). */
  datatype Standing = Standing(team: Team, score: real)

  function Descending(s: Standing): real { -s.score }

  /** The standings of a trial: each team's wins plus its own jitter. */
  function Standings(trial: seq<Team>, jitter: seq<real>): (r: seq<Standing>)
    requires |jitter| == |trial|
    ensures |r| == |trial|
    ensures forall i :: 0 <= i < |r| ==> r[i].team == trial[i] && r[i].score - trial[i].matchesFor as real == jitter[i]
  {
    if |trial| == 0 then []
    else [Standing(trial[0], trial[0].matchesFor as real + jitter[0])] + Standings(trial[1..], jitter[1..])
  }

  /** Ranks standings by score, best first; equal scores keep roster order. */
  function Rank(standings: seq<Standing>): (r: seq<Standing>)
    ensures multiset(r) == multiset(standings)
    ensures |r| == |standings|
    ensures forall i, j :: 0 <= i < j < |r| ==> r[i].score >= r[j].score
    ensures Sorting.KeepsTies(standings, r, Descending)
  {
    var r := Sorting.Sort(standings, Descending);
    assert forall i, j :: 0 <= i < j < |r| ==> Descending(r[i]) <= Descending(r[j]);
    r
  }

  /**
    `teams_sorted[:4]`: the first `PlayoffSlots` standings of the ranking, or all of
    them if there are fewer. Each standing qualifies at most as often as it occurs,
    and no standing left out scores higher than one taken.
   */
  function Qualifiers(standings: seq<Standing>): (r: seq<Standing>)
    ensures |r| == Min(PlayoffSlots, |standings|)
    ensures r == Rank(standings)[..Min(PlayoffSlots, |standings|)]
    ensures multiset(r) <= multiset(standings)
    ensures forall x :: x in r ==> x in standings
    ensures forall i, j :: 0 <= i < |r| && |r| <= j < |standings| ==> r[i].score >= Rank(standings)[j].score
  {
    var ranked := Rank(standings);
    var n := Min(PlayoffSlots, |standings|);
    var r := ranked[..n];
    assert ranked == r + ranked[n..];
    assert multiset(ranked) == multiset(r) + multiset(ranked[n..]);
    forall x | x in r ensures x in standings {
      assert x in multiset(ranked);
    }
    r
  }

  /**
    Adds one playoff appearance to the canonical team named by each qualifier; a
    name missing from the canonical roster is a `KeyError`.
   */
  function Award(teams: seq<Team>, qualifiers: seq<Standing>): (r: Result<seq<Team>>)
    ensures r.Ok? <==> forall x :: x in qualifiers ==> Find(teams, x.team.name).Some?
    ensures r.Ok? ==> SameNames(teams, r.value)
    ensures r.Ok? ==> forall j :: 0 <= j < |teams| ==>
      && r.value[j].elo == teams[j].elo
      && r.value[j].matchesFor == teams[j].matchesFor
      && r.value[j].matchesAgainst == teams[j].matchesAgainst
      && r.value[j].numPlayoffs >= teams[j].numPlayoffs
    ensures r.Ok? ==> Total(r.value, PlayoffsOf) == Total(teams, PlayoffsOf) + |qualifiers| as real
    decreases |qualifiers|
  {
    if |qualifiers| == 0 then Ok(teams)
    else
      assert qualifiers == [qualifiers[0]] + qualifiers[1..];
      var name := qualifiers[0].team.name;
      match Find(teams, name)
      case None => UnknownTeam(name)
      case Some(i) =>
        var bumped := Bump(teams, i);
        TotalUpdate(teams, i, bumped[i], PlayoffsOf);
        forall n ensures Find(bumped, n) == Find(teams, n) {
          FindSameNames(bumped, teams, n);
        }
        Award(bumped, qualifiers[1..])
  }

  /** The roster with one more playoff appearance for the team at `i`. */
  function Bump(teams: seq<Team>, i: nat): (r: seq<Team>)
    requires i < |teams|
    ensures |r| == |teams| && SameNames(teams, r)
    ensures forall j :: 0 <= j < |teams| ==>
      r[j].numPlayoffs == teams[j].numPlayoffs + (if i == j then 1 else 0)
  {
    teams[i := teams[i].(numPlayoffs := teams[i].numPlayoffs + 1)]
  }

  /** One step of `Award` when the first qualifier is on the roster. */
  lemma AwardUnfold(teams: seq<Team>, qualifiers: seq<Standing>)
    requires |qualifiers| > 0 && Find(teams, qualifiers[0].team.name).Some?
    ensures Award(teams, qualifiers) == Award(Bump(teams, Find(teams, qualifiers[0].team.name).value), qualifiers[1..])
  {
  }

  /** No two standings belong to teams of the same name. */
  ghost predicate DistinctNames(qualifiers: seq<Standing>) {
    forall i, j :: 0 <= i < j < |qualifiers| ==> qualifiers[i].team.name != qualifiers[j].team.name
  }

  /** How many qualifiers carry the name `name`. */
  function Appearances(qualifiers: seq<Standing>, name: string): nat {
    if |qualifiers| == 0 then 0
    else (if qualifiers[0].team.name == name then 1 else 0) + Appearances(qualifiers[1..], name)
  }

  /** Each canonical team gains one appearance per qualifier of its name. */
  lemma {:induction false} AwardCounts(teams: seq<Team>, qualifiers: seq<Standing>, j: int)
    requires UniqueNames(teams) && 0 <= j < |teams|
    requires Award(teams, qualifiers).Ok?
    ensures Award(teams, qualifiers).value[j].numPlayoffs == teams[j].numPlayoffs + Appearances(qualifiers, teams[j].name)
    decreases |qualifiers|
  {
    if |qualifiers| > 0 {
      var name := qualifiers[0].team.name;
      var i := Find(teams, name).value;
      var bumped := Bump(teams, i);
      AwardUnfold(teams, qualifiers);
      SameNamesUnique(teams, bumped);
      AwardCounts(bumped, qualifiers[1..], j);
      FindUnique(teams, j);
      assert i == j <==> name == teams[j].name;
    }
  }

  /**
    The end of a trial: award the qualifiers of the trial's standings to the
    canonical roster. When the trial played on a copy of that roster, it never
    fails and adds exactly min(4, number of teams) appearances in all.
   */
  function PlayoffRound(teams: seq<Team>, trial: seq<Team>, jitter: seq<real>): (r: Result<seq<Team>>)
    requires |jitter| == |trial|
    ensures SameNames(teams, trial) ==> r.Ok?
    ensures r.Ok? ==> SameNames(teams, r.value)
    ensures r.Ok? ==> forall j :: 0 <= j < |teams| ==>
      && r.value[j].elo == teams[j].elo
      && r.value[j].matchesFor == teams[j].matchesFor
      && r.value[j].matchesAgainst == teams[j].matchesAgainst
    ensures r.Ok? ==> Total(r.value, PlayoffsOf) == Total(teams, PlayoffsOf) + Min(PlayoffSlots, |trial|) as real
  {
    var standings := Standings(trial, jitter);
    var qualifiers := Qualifiers(standings);
    QualifiersRegistered(teams, trial, jitter);
    Award(teams, qualifiers)
  }

  /** Every qualifier of a trial played on a copy of the roster is on the roster. */
  lemma QualifiersRegistered(teams: seq<Team>, trial: seq<Team>, jitter: seq<real>)
    requires |jitter| == |trial|
    ensures SameNames(teams, trial) ==>
      forall x :: x in Qualifiers(Standings(trial, jitter)) ==> Find(teams, x.team.name).Some?
  {
    var standings := Standings(trial, jitter);
    if SameNames(teams, trial) {
      forall x | x in Qualifiers(standings) ensures Find(teams, x.team.name).Some? {
        var k :| 0 <= k < |standings| && standings[k] == x;
        assert teams[k].name == x.team.name;
      }
    }
  }

  /**
    Jitter in [0, 0.01) only breaks ties: a team that won fewer matches in the trial
    is never ranked above one that won more.
   */
  lemma JitterKeepsWinOrder(trial: seq<Team>, jitter: seq<real>)
    requires |jitter| == |trial|
    requires forall i :: 0 <= i < |jitter| ==> 0.0 <= jitter[i] < 0.01
    ensures var r := Rank(Standings(trial, jitter));
      forall i, j :: 0 <= i < j < |r| ==> r[i].team.matchesFor >= r[j].team.matchesFor
  {
    var standings := Standings(trial, jitter);
    var r := Rank(standings);
    forall k | 0 <= k < |r| ensures 0.0 <= r[k].score - r[k].team.matchesFor as real < 0.01 {
      assert r[k] in multiset(standings);
      var n :| 0 <= n < |standings| && standings[n] == r[k];
    }
    forall i, j | 0 <= i < j < |r| ensures r[i].team.matchesFor >= r[j].team.matchesFor {
      assert r[i].score >= r[j].score;
    }
  }

  /**
    On a roster with unique names each team makes the playoffs at most once per
    trial, and exactly when it is among the trial's qualifiers.
   */
  lemma PlayoffRoundOncePerTeam(teams: seq<Team>, trial: seq<Team>, jitter: seq<real>, j: int)
    requires |jitter| == |trial| && UniqueNames(teams) && SameNames(teams, trial) && 0 <= j < |teams|
    ensures var r := PlayoffRound(teams, trial, jitter).value;
      && teams[j].numPlayoffs <= r[j].numPlayoffs <= teams[j].numPlayoffs + 1
      && (r[j].numPlayoffs == teams[j].numPlayoffs + 1 <==>
            exists x :: x in Qualifiers(Standings(trial, jitter)) && x.team.name == teams[j].name)
  {
    var qualifiers := Qualifiers(Standings(trial, jitter));
    assert PlayoffRound(teams, trial, jitter) == Award(teams, qualifiers);
    SameNamesUnique(teams, trial);
    QualifierNamesDistinct(trial, jitter);
    AwardOncePerTeam(teams, qualifiers, j);
  }

  /** Qualifiers with distinct names give each canonical team at most one appearance. */
  lemma AwardOncePerTeam(teams: seq<Team>, qualifiers: seq<Standing>, j: int)
    requires UniqueNames(teams) && 0 <= j < |teams|
    requires Award(teams, qualifiers).Ok?
    requires DistinctNames(qualifiers)
    ensures var r := Award(teams, qualifiers).value;
      && teams[j].numPlayoffs <= r[j].numPlayoffs <= teams[j].numPlayoffs + 1
      && (r[j].numPlayoffs == teams[j].numPlayoffs + 1 <==>
            exists x :: x in qualifiers && x.team.name == teams[j].name)
  {
    AwardCounts(teams, qualifiers, j);
    AppearancesAtMostOne(qualifiers, teams[j].name);
  }

  /** Teams with unique names give qualifiers with unique names. */
  lemma QualifierNamesDistinct(trial: seq<Team>, jitter: seq<real>)
    requires |jitter| == |trial| && UniqueNames(trial)
    ensures DistinctNames(Qualifiers(Standings(trial, jitter)))
  {
    var standings := Standings(trial, jitter);
    var ranked := Rank(standings);
    var q := Qualifiers(standings);
    StandingNamesUnique(trial, jitter);
    Sorting.PermutationKeepsDistinct(standings, ranked);
    forall i, j | 0 <= i < j < |q| ensures q[i].team.name != q[j].team.name {
      assert q[i] == ranked[i] && q[j] == ranked[j];
      assert q[i] in q && q[j] in q;
    }
  }

  /** On a roster with unique names, a standing is identified by its team's name. */
  lemma StandingNamesUnique(trial: seq<Team>, jitter: seq<real>)
    requires |jitter| == |trial| && UniqueNames(trial)
    ensures Sorting.Distinct(Standings(trial, jitter))
    ensures forall x, y :: x in Standings(trial, jitter) && y in Standings(trial, jitter) && x.team.name == y.team.name ==> x == y
  {
    var standings := Standings(trial, jitter);
    forall x, y | x in standings && y in standings && x.team.name == y.team.name ensures x == y {
      var a :| 0 <= a < |standings| && standings[a] == x;
      var b :| 0 <= b < |standings| && standings[b] == y;
      assert standings[a].team.name == trial[a].name && standings[b].team.name == trial[b].name;
    }
    forall a, b | 0 <= a < b < |standings| ensures standings[a] != standings[b] {
      assert standings[a].team.name == trial[a].name;
    }
  }

  /** A name occurs at most once among qualifiers with distinct names, and exactly once if it occurs. */
  lemma {:induction false} AppearancesAtMostOne(qualifiers: seq<Standing>, name: string)
    requires DistinctNames(qualifiers)
    ensures Appearances(qualifiers, name) <= 1
    ensures Appearances(qualifiers, name) == 1 <==> exists x :: x in qualifiers && x.team.name == name
  {
    if |qualifiers| > 0 {
      var rest := qualifiers[1..];
      AppearancesAtMostOne(rest, name);
      assert qualifiers == [qualifiers[0]] + rest;
      if qualifiers[0].team.name == name {
        assert forall x :: x in rest ==> x.team.name != name by {
          forall x | x in rest ensures x.team.name != name {
            var k :| 0 <= k < |rest| && rest[k] == x;
            assert qualifiers[k + 1] == x;
          }
        }
      }
    }
  }

  /** The ranking key of a trial without jitter: matches won, best first. */
  function ByWins(s: Standing): real { -(s.team.matchesFor as real) }

  /**
    Without jitter, as in a ROLLING trial, teams that won the same number of matches
    appear in the ranking in roster order, so a tie at the last playoff place goes to
    the team registered first.
   */
  lemma EqualWinsKeepRosterOrder(trial: seq<Team>, jitter: seq<real>, wins: int)
    requires |jitter| == |trial| && forall i :: 0 <= i < |jitter| ==> jitter[i] == 0.0
    ensures Sorting.WithKey(Rank(Standings(trial, jitter)), ByWins, -(wins as real))
         == Sorting.WithKey(Standings(trial, jitter), ByWins, -(wins as real))
  {
    var standings := Standings(trial, jitter);
    var ranked := Rank(standings);
    ScoresAreWins(trial, jitter);
    RankedFromStandings(standings);
    TiesByWins(standings, ranked, -(wins as real));
    assert Sorting.WithKey(ranked, ByWins, -(wins as real)) == Sorting.WithKey(standings, ByWins, -(wins as real));
  }

  /** A stable reordering by score keeps the order of equal win counts when scores are wins. */
  lemma TiesByWins(standings: seq<Standing>, ranked: seq<Standing>, v: real)
    requires Sorting.KeepsTies(standings, ranked, Descending)
    requires forall x :: x in standings ==> Descending(x) == ByWins(x)
    requires forall x :: x in ranked ==> x in standings
    ensures Sorting.WithKey(ranked, ByWins, v) == Sorting.WithKey(standings, ByWins, v)
  {
    Sorting.WithKeyAgree(standings, Descending, ByWins, v);
    Sorting.WithKeyAgree(ranked, Descending, ByWins, v);
    assert Sorting.WithKey(ranked, Descending, v) == Sorting.WithKey(standings, Descending, v);
  }

  /** Without jitter a standing's score is its number of wins. */
  lemma ScoresAreWins(trial: seq<Team>, jitter: seq<real>)
    requires |jitter| == |trial| && forall i :: 0 <= i < |jitter| ==> jitter[i] == 0.0
    ensures forall x :: x in Standings(trial, jitter) ==> Descending(x) == ByWins(x)
  {
    var standings := Standings(trial, jitter);
    forall x | x in standings ensures Descending(x) == ByWins(x) {
      var k :| 0 <= k < |standings| && standings[k] == x;
      assert x.score - trial[k].matchesFor as real == jitter[k];
    }
  }

  /** Every ranked standing is one of the standings. */
  lemma RankedFromStandings(standings: seq<Standing>)
    ensures forall x :: x in Rank(standings) ==> x in standings
  {
    var ranked := Rank(standings);
    forall x | x in ranked ensures x in standings {
      assert x in multiset(ranked);
    }
  }
}

=== FILE: printer.dfy ===
/**
  The weekly page (`simulation/printer.py`): the Elo table, best rating first, with
  each team's playoff frequency, and the listing of upcoming matches with their
  win probabilities.

  Numbers are printed with `%.0f`, which rounds to the nearest integer and a tie to
  the even one; `RoundHalfEven` models that on exact reals. The HTML markup, the
  template file and the output file are not modelled: the page is the sequence of
  rows it shows.
 */
module Printer {
  import opened Model
  import Sorting

  /** How many trials the forecast runs. */
  const NumSimulations: nat := 10000

  /** `%.0f`: the nearest integer, a tie going to the even neighbour. */
  function RoundHalfEven(x: real): (n: int)
    ensures -0.5 <= x - n as real <= 0.5
    ensures x - n as real == 0.5 || x - n as real == -0.5 ==> n % 2 == 0
  {
    var f := x.Floor;
    var frac := x - f as real;
    if frac < 0.5 then f
    else if frac > 0.5 then f + 1
    else if f % 2 == 0 then f
    else f + 1
  }

  /** How a team's playoff frequency is shown. */
  datatype Band = AboveNinetyNine | BelowOne | Shown(percent: int)

  /** The playoff frequency in percent. */
  function Percent(numPlayoffs: int, numSimulations: nat): real
    requires numSimulations > 0
  {
    numPlayoffs as real * 100.0 / numSimulations as real
  }

  /**
    The band as written: "> 99%" strictly above 99.5%, "< 1%" strictly below 0.5%,
    and the rounded percentage otherwise.
   */
  function PlayoffBand(numPlayoffs: int, numSimulations: nat): (b: Band)
    requires numSimulations > 0
    ensures b.AboveNinetyNine? <==> 99.5 < Percent(numPlayoffs, numSimulations) < 99.9999
    ensures b.BelowOne? <==> 0.0001 < Percent(numPlayoffs, numSimulations) < 0.5
    ensures b.Shown? ==> b.percent == RoundHalfEven(Percent(numPlayoffs, numSimulations))
  {
    var pct := Percent(numPlayoffs, numSimulations);
    if 99.5 < pct < 99.9999 then AboveNinetyNine
    else if 0.0001 < pct < 0.5 then BelowOne
    else Shown(RoundHalfEven(pct))
  }

  /**
    The band as the comment "don't round up to 100% or down to 0%" intends: the
    boundaries 99.5% and 0.5%, which `%.0f` would round to 100 and 0, belong to the
    "> 99%" and "< 1%" bands.
   */
  function PlayoffBandCorrected(numPlayoffs: int, numSimulations: nat): (b: Band)
    requires numSimulations > 0
    ensures b.AboveNinetyNine? <==> 99.5 <= Percent(numPlayoffs, numSimulations) < 99.9999
    ensures b.BelowOne? <==> 0.0001 < Percent(numPlayoffs, numSimulations) <= 0.5
    ensures b.Shown? ==> b.percent == RoundHalfEven(Percent(numPlayoffs, numSimulations))
  {
    var pct := Percent(numPlayoffs, numSimulations);
    if 99.5 <= pct < 99.9999 then AboveNinetyNine
    else if 0.0001 < pct <= 0.5 then BelowOne
    else Shown(RoundHalfEven(pct))
  }

  /**
    As written, a team that missed the playoffs in 50 of 10000 trials is shown at
    100%, and one that made them in 50 of 10000 trials is shown at 0%.
   */
  lemma RoundsToCertainty()
    ensures PlayoffBand(9950, NumSimulations) == Shown(100)
    ensures PlayoffBand(50, NumSimulations) == Shown(0)
  {
    assert Percent(9950, NumSimulations) == 99.5;
    assert Percent(50, NumSimulations) == 0.5;
  }

  /**
    With the corrected bands, an outcome that happened in some but not all trials is
    never shown as 100% or 0% (for fewer than a million trials, where 99.9999% and
    0.0001% cannot be reached by an uncertain count).
   */
  lemma CorrectedNeverClaimsCertainty(numPlayoffs: int, numSimulations: nat)
    requires 0 < numPlayoffs < numSimulations < 1000000
    ensures PlayoffBandCorrected(numPlayoffs, numSimulations) != Shown(100)
    ensures PlayoffBandCorrected(numPlayoffs, numSimulations) != Shown(0)
  {
    var pct := Percent(numPlayoffs, numSimulations);
    var s, n := numSimulations as real, numPlayoffs as real;
    assert pct * s == n * 100.0;
    Scale(pct, s, 0.0001);
    Scale(pct, s, 99.9999);
    assert n * 100.0 > 0.0001 * s;
    assert (s - n) * 100.0 > 0.0001 * s;
    assert 0.0001 < pct < 99.9999;
    var b := PlayoffBandCorrected(numPlayoffs, numSimulations);
    if b.Shown? {
      assert 0.5 < pct < 99.5;
    }
  }

  /**
    The trial bound above is needed: at a million trials one appearance is exactly
    0.0001%, which the kept lower limit excludes from the "< 1%" band.
   */
  lemma MillionTrialsShowZero()
    ensures PlayoffBandCorrected(1, 1000000) == Shown(0)
  {
    assert Percent(1, 1000000) == 0.0001;
  }

  /** Comparing a percentage with a bound is comparing both scaled by the trial count. */
  lemma Scale(p: real, s: real, c: real)
    requires s > 0.0
    ensures p < c <==> p * s < c * s
    ensures p <= c <==> p * s <= c * s
  {
    if p < c {
      assert (c - p) * s > 0.0;
    } else {
      assert (p - c) * s >= 0.0;
    }
  }

  /** Certain outcomes are shown as they are, by both versions. */
  lemma CertaintyShown(numSimulations: nat)
    requires numSimulations > 0
    ensures PlayoffBand(numSimulations, numSimulations) == PlayoffBandCorrected(numSimulations, numSimulations) == Shown(100)
    ensures PlayoffBand(0, numSimulations) == PlayoffBandCorrected(0, numSimulations) == Shown(0)
  {
    assert Percent(numSimulations, numSimulations) == 100.0;
    assert RoundHalfEven(100.0) == 100;
  }

  /**
    At 10000 trials, the corrected "> 99%" covers exactly the counts 9950 to 9999 and
    "< 1%" exactly the counts 1 to 50.
   */
  lemma CorrectedBandsAtTenThousand(n: int)
    ensures PlayoffBandCorrected(n, NumSimulations).AboveNinetyNine? <==> 9950 <= n <= 9999
    ensures PlayoffBandCorrected(n, NumSimulations).BelowOne? <==> 1 <= n <= 50
  {
    assert Percent(n, NumSimulations) == n as real / 100.0;
  }

  /** At 10000 trials, the bands as written leave out the boundary counts 9950 and 50. */
  lemma BandsAtTenThousand(n: int)
    ensures PlayoffBand(n, NumSimulations).AboveNinetyNine? <==> 9951 <= n <= 9999
    ensures PlayoffBand(n, NumSimulations).BelowOne? <==> 1 <= n <= 49
  {
    assert Percent(n, NumSimulations) == n as real / 100.0;
  }

  // ---------------------------------------------------------------------------
  // The Elo table

  /** One row of the Elo table: name, rating as printed, playoff band. */
  datatype EloRow = EloRow(name: string, elo: real, shownElo: int, band: Band)

  /** The band a row shows: as written, or with the corrected boundaries. */
  function BandOf(numPlayoffs: int, numSimulations: nat, corrected: bool): Band
    requires numSimulations > 0
  {
    if corrected then PlayoffBandCorrected(numPlayoffs, numSimulations) else PlayoffBand(numPlayoffs, numSimulations)
  }

  function RowOf(t: Team, numSimulations: nat, corrected: bool): EloRow
    requires numSimulations > 0
  {
    EloRow(t.name, t.elo, RoundHalfEven(t.elo), BandOf(t.numPlayoffs, numSimulations, corrected))
  }

  function Descending(t: Team): real { -t.elo }

  function Rows(ts: seq<Team>, numSimulations: nat, corrected: bool): (r: seq<EloRow>)
    requires numSimulations > 0
    ensures |r| == |ts| && forall i :: 0 <= i < |ts| ==> r[i] == RowOf(ts[i], numSimulations, corrected)
  {
    if |ts| == 0 then [] else [RowOf(ts[0], numSimulations, corrected)] + Rows(ts[1..], numSimulations, corrected)
  }

  /**
    The Elo table: one row per team, highest rating first, teams of equal rating in
    roster order. `corrected` selects the corrected playoff bands; the page as
    written uses the bands of `PlayoffBand`.
   */
  function EloTable(teams: seq<Team>, numSimulations: nat, corrected: bool): (r: seq<EloRow>)
    requires numSimulations > 0
    ensures |r| == |teams|
    ensures forall i, j :: 0 <= i < j < |r| ==> r[i].elo >= r[j].elo
    ensures forall t :: t in teams ==> RowOf(t, numSimulations, corrected) in r
    ensures forall row :: row in r ==> exists t :: t in teams && row == RowOf(t, numSimulations, corrected)
    ensures exists ranked :: && multiset(ranked) == multiset(teams)
                             && Sorting.KeepsTies(teams, ranked, Descending)
                             && r == Rows(ranked, numSimulations, corrected)
  {
    var ranked := Sorting.Sort(teams, Descending);
    RowsDescending(ranked, numSimulations, corrected);
    RowsCover(teams, ranked, numSimulations, corrected);
    Rows(ranked, numSimulations, corrected)
  }

  lemma RowsDescending(ranked: seq<Team>, numSimulations: nat, corrected: bool)
    requires numSimulations > 0 && Sorting.SortedBy(ranked, Descending)
    ensures var r := Rows(ranked, numSimulations, corrected);
      forall i, j :: 0 <= i < j < |r| ==> r[i].elo >= r[j].elo
  {
    var r := Rows(ranked, numSimulations, corrected);
    forall i, j | 0 <= i < j < |r| ensures r[i].elo >= r[j].elo {
      assert Descending(ranked[i]) <= Descending(ranked[j]);
    }
  }

  /** The rows of a reordered roster are the rows of the roster. */
  lemma RowsCover(teams: seq<Team>, ranked: seq<Team>, numSimulations: nat, corrected: bool)
    requires numSimulations > 0 && multiset(ranked) == multiset(teams)
    ensures var r := Rows(ranked, numSimulations, corrected);
      && (forall t :: t in teams ==> RowOf(t, numSimulations, corrected) in r)
      && (forall row :: row in r ==> exists t :: t in teams && row == RowOf(t, numSimulations, corrected))
  {
    var r := Rows(ranked, numSimulations, corrected);
    forall t | t in teams ensures RowOf(t, numSimulations, corrected) in r {
      assert t in multiset(ranked);
      var k :| 0 <= k < |ranked| && ranked[k] == t;
      assert r[k] == RowOf(t, numSimulations, corrected);
    }
    forall row | row in r ensures exists t :: t in teams && row == RowOf(t, numSimulations, corrected) {
      var k :| 0 <= k < |r| && r[k] == row;
      assert ranked[k] in multiset(teams);
    }
  }

  // ---------------------------------------------------------------------------
  // The match listing

  /** A match is listed when it had no score originally and falls on or before `endWeek`. */
  predicate Upcoming(m: Match, endWeek: Date) {
    !m.origCompleted && m.date <= endWeek
  }

  /** The listed matches, in schedule order. */
  function ListedMatches(ms: seq<Match>, endWeek: Date): (r: seq<Match>)
    ensures forall m :: multiset(r)[m] == if Upcoming(m, endWeek) then multiset(ms)[m] else 0
  {
    if |ms| == 0 then []
    else
      assert ms == [ms[0]] + ms[1..];
      (if Upcoming(ms[0], endWeek) then [ms[0]] else []) + ListedMatches(ms[1..], endWeek)
  }

  /** A single match is listed exactly when it is upcoming. */
  lemma ListedOne(m: Match, endWeek: Date)
    ensures ListedMatches([m], endWeek) == if Upcoming(m, endWeek) then [m] else []
  {
    assert [m][1..] == [];
  }

  /**
    Listing keeps schedule order: the listing of two consecutive stretches of the
    schedule is the first stretch's listing followed by the second's.
   */
  lemma {:induction false} ListedAppend(a: seq<Match>, b: seq<Match>, endWeek: Date)
    ensures ListedMatches(a + b, endWeek) == ListedMatches(a, endWeek) + ListedMatches(b, endWeek)
    decreases |a|
  {
    if |a| > 0 {
      var head := if Upcoming(a[0], endWeek) then [a[0]] else [];
      assert (a + b)[0] == a[0] && (a + b)[1..] == a[1..] + b;
      assert ListedMatches(a + b, endWeek) == head + ListedMatches(a[1..] + b, endWeek);
      assert ListedMatches(a, endWeek) == head + ListedMatches(a[1..], endWeek);
      ListedAppend(a[1..], b, endWeek);
      Associate(head, ListedMatches(a[1..], endWeek), ListedMatches(b, endWeek));
    } else {
      assert a + b == b;
    }
  }

  lemma Associate<T>(x: seq<T>, y: seq<T>, z: seq<T>)
    ensures x + (y + z) == (x + y) + z
  {
  }

  /** One listed match: date, sides, and each side's win probability as a printed percentage. */
  datatype MatchRow = MatchRow(date: Date, team1: string, team2: string, t1Percent: int, t2Percent: int)

  function MatchRowOf(m: Match): MatchRow {
    MatchRow(m.date, m.team1, m.team2, RoundHalfEven(m.t1Prob * 100.0), RoundHalfEven(m.t2Prob * 100.0))
  }

  /**
    The two printed percentages of a match always add up to 100, also when both
    sides sit exactly on a rounding tie.
   */
  lemma PercentsAddUp(m: Match)
    requires ValidProbs(m)
    ensures MatchRowOf(m).t1Percent + MatchRowOf(m).t2Percent == 100
    ensures 0 <= MatchRowOf(m).t1Percent <= 100
  {
    var x, y := m.t1Prob * 100.0, m.t2Prob * 100.0;
    assert x + y == 100.0;
  }

  /** The rows of `listed`, one per match and in the same order. */
  function MatchRows(listed: seq<Match>): (r: seq<MatchRow>)
    ensures |r| == |listed| && forall i :: 0 <= i < |r| ==> r[i] == MatchRowOf(listed[i])
  {
    seq(|listed|, i requires 0 <= i < |listed| => MatchRowOf(listed[i]))
  }

  /**
    The match listing: one row per listed match, in schedule order. Every row comes
    from an upcoming match of the schedule, so it is dated no later than `endWeek`,
    and on a schedule of valid probabilities its two percentages add up to 100.
   */
  function MatchListing(ms: seq<Match>, endWeek: Date): (r: seq<MatchRow>)
    ensures |r| == |ListedMatches(ms, endWeek)|
    ensures forall i :: 0 <= i < |r| ==> r[i] == MatchRowOf(ListedMatches(ms, endWeek)[i])
    ensures forall i :: 0 <= i < |r| ==>
      exists k :: 0 <= k < |ms| && Upcoming(ms[k], endWeek) && r[i] == MatchRowOf(ms[k])
    ensures forall i :: 0 <= i < |r| ==> r[i].date <= endWeek
    ensures (forall m :: m in ms ==> ValidProbs(m)) ==>
      forall i :: 0 <= i < |r| ==> r[i].t1Percent + r[i].t2Percent == 100 && 0 <= r[i].t1Percent <= 100
  {
    ListingFromSchedule(ms, endWeek);
    ListingPercents(ms, endWeek);
    MatchRows(ListedMatches(ms, endWeek))
  }

  lemma ListingFromSchedule(ms: seq<Match>, endWeek: Date)
    ensures var r := MatchRows(ListedMatches(ms, endWeek));
      forall i :: 0 <= i < |r| ==>
        && r[i].date <= endWeek
        && exists k :: 0 <= k < |ms| && Upcoming(ms[k], endWeek) && r[i] == MatchRowOf(ms[k])
  {
    var listed := ListedMatches(ms, endWeek);
    forall i | 0 <= i < |listed|
      ensures exists k :: 0 <= k < |ms| && Upcoming(ms[k], endWeek) && listed[i] == ms[k]
    {
      assert listed[i] in multiset(listed);
    }
  }

  lemma ListingPercents(ms: seq<Match>, endWeek: Date)
    ensures var r := MatchRows(ListedMatches(ms, endWeek));
      (forall m :: m in ms ==> ValidProbs(m)) ==>
      forall i :: 0 <= i < |r| ==> r[i].t1Percent + r[i].t2Percent == 100 && 0 <= r[i].t1Percent <= 100
  {
    var listed := ListedMatches(ms, endWeek);
    forall i | 0 <= i < |listed| && ValidProbs(listed[i])
      ensures MatchRowOf(listed[i]).t1Percent + MatchRowOf(listed[i]).t2Percent == 100
      ensures 0 <= MatchRowOf(listed[i]).t1Percent <= 100
    {
      PercentsAddUp(listed[i]);
    }
    forall i | 0 <= i < |listed| ensures listed[i] in ms {
      assert listed[i] in multiset(listed);
    }
  }

  /** The listing of consecutive stretches of the schedule is their listings in turn. */
  lemma MatchListingAppend(a: seq<Match>, b: seq<Match>, endWeek: Date)
    ensures MatchListing(a + b, endWeek) == MatchListing(a, endWeek) + MatchListing(b, endWeek)
    ensures MatchListing([], endWeek) == []
  {
    ListedAppend(a, b, endWeek);
    var la, lb := ListedMatches(a, endWeek), ListedMatches(b, endWeek);
    MatchRowsAppend(la, lb);
    assert MatchListing(a + b, endWeek) == MatchRows(la + lb);
    assert MatchListing(a, endWeek) == MatchRows(la) && MatchListing(b, endWeek) == MatchRows(lb);
  }

  lemma MatchRowsAppend(x: seq<Match>, y: seq<Match>)
    ensures MatchRows(x + y) == MatchRows(x) + MatchRows(y)
  {
    var l, r := MatchRows(x + y), MatchRows(x) + MatchRows(y);
    forall i | 0 <= i < |l| ensures l[i] == r[i] {
      if i < |x| {
        assert (x + y)[i] == x[i];
      } else {
        assert (x + y)[i] == y[i - |x|];
      }
    }
  }

  /** A single match gives its row when it is upcoming and nothing otherwise. */
  lemma MatchListingOne(m: Match, endWeek: Date)
    ensures MatchListing([m], endWeek) == if Upcoming(m, endWeek) then [MatchRowOf(m)] else []
  {
    ListedOne(m, endWeek);
  }
}

=== FILE: rolling.dfy ===
/**
  The ROLLING forecast (`simulate_season` in `tf2elo.py`): every trial plays each
  unplayed match on fresh copies of the matches and teams, lets ratings move after
  every simulated result, and credits the trial's top four with one playoff
  appearance on the canonical teams.

  The random numbers are inputs: `draws[k]` is the uniform number drawn for the k-th
  match of the schedule in a trial, and a trial is one such sequence.
 */
module Rolling {
  import opened Model
  import opened Elo
  import History
  import Playoffs
  import Season

  /** How many matches of `ms` have no result yet. */
  function Pending(ms: seq<Match>): nat {
    if |ms| == 0 then 0 else (if ms[0].completed then 0 else 1) + Pending(ms[1..])
  }

  /**
    One simulated match: a recorded result is skipped; otherwise team1 wins 5-0 when
    the draw falls below its expected score and loses 0-5 otherwise, the winner and
    loser are credited, and both ratings move by the Elo step on the simulated result.
   */
  function PlayMatch(q: Curve, m: Match, teams: seq<Team>, draw: real): (r: Result<seq<Team>>)
    ensures m.completed ==> r == Ok(teams)
    ensures r.Ok? <==> m.completed || Season.Knows(teams, m)
    ensures r.Ok? ==> SameNames(teams, r.value)
    ensures r.Ok? ==> forall j :: 0 <= j < |teams| ==> r.value[j].numPlayoffs == teams[j].numPlayoffs
    ensures r.Ok? && !m.completed ==>
      && Total(r.value, WinsOf) == Total(teams, WinsOf) + 1.0
      && Total(r.value, LossesOf) == Total(teams, LossesOf) + 1.0
    ensures r.Ok? ==> Total(r.value, PlayoffsOf) == Total(teams, PlayoffsOf)
    ensures r.Ok? && m.team1 != m.team2 ==> Total(r.value, EloOf) == Total(teams, EloOf)
    ensures r.Ok? && !m.completed && m.team1 != m.team2 ==>
      var i1, i2 := Find(teams, m.team1).value, Find(teams, m.team2).value;
      var team1Wins := draw < Expected(q, teams[i1].elo, teams[i2].elo);
      && r.value[i1].matchesFor == teams[i1].matchesFor + (if team1Wins then 1 else 0)
      && r.value[i2].matchesFor == teams[i2].matchesFor + (if team1Wins then 0 else 1)
      && r.value[i1].matchesAgainst == teams[i1].matchesAgainst + (if team1Wins then 0 else 1)
      && r.value[i2].matchesAgainst == teams[i2].matchesAgainst + (if team1Wins then 1 else 0)
      && (r.value[i1].elo > teams[i1].elo <==> team1Wins)
      && (r.value[i2].elo > teams[i2].elo <==> !team1Wins)
      && (r.value[i1].elo, r.value[i2].elo)
         == UpdateElos(q, teams[i1].elo, teams[i2].elo, if team1Wins then 1.0 else 0.0, if team1Wins then 0.0 else 1.0)
    ensures r.Ok? && !m.completed ==>
      var i1, i2 := Find(teams, m.team1).value, Find(teams, m.team2).value;
      forall j :: 0 <= j < |teams| && j != i1 && j != i2 ==> r.value[j] == teams[j]
  {
    if m.completed then Ok(teams)
    else match (Find(teams, m.team1), Find(teams, m.team2))
      case (None, _) => UnknownTeam(m.team1)
      case (Some(_), None) => UnknownTeam(m.team2)
      case (Some(i1), Some(i2)) =>
        var team1Wins := draw < Expected(q, teams[i1].elo, teams[i2].elo);
        var played := if team1Wins then SetScores(m, 5, 0) else SetScores(m, 0, 5);
        Ok(Decide(q, teams, i1, i2, team1Wins, played.t1Prob, played.t2Prob))
  }

  /**
    Credits a simulated result between the teams at `i1` and `i2` and moves their
    ratings by the Elo step on the realised probabilities. Every other team is left
    as it was; a team playing itself is credited both ways and ends with team2's
    new rating.
   */
  function Decide(q: Curve, teams: seq<Team>, i1: nat, i2: nat, team1Wins: bool, t1Prob: real, t2Prob: real): (r: seq<Team>)
    requires i1 < |teams| && i2 < |teams|
    requires t1Prob == (if team1Wins then 1.0 else 0.0) && t2Prob == 1.0 - t1Prob
    ensures SameNames(teams, r)
    ensures forall j :: 0 <= j < |teams| ==> r[j].numPlayoffs == teams[j].numPlayoffs
    ensures Total(r, WinsOf) == Total(teams, WinsOf) + 1.0
    ensures Total(r, LossesOf) == Total(teams, LossesOf) + 1.0
    ensures Total(r, PlayoffsOf) == Total(teams, PlayoffsOf)
    ensures i1 != i2 ==> Total(r, EloOf) == Total(teams, EloOf)
    ensures i1 != i2 ==>
      && r[i1].matchesFor == teams[i1].matchesFor + (if team1Wins then 1 else 0)
      && r[i2].matchesFor == teams[i2].matchesFor + (if team1Wins then 0 else 1)
      && r[i1].matchesAgainst == teams[i1].matchesAgainst + (if team1Wins then 0 else 1)
      && r[i2].matchesAgainst == teams[i2].matchesAgainst + (if team1Wins then 1 else 0)
      && (r[i1].elo > teams[i1].elo <==> team1Wins)
      && (r[i2].elo > teams[i2].elo <==> !team1Wins)
    ensures forall j :: 0 <= j < |teams| && j != i1 && j != i2 ==> r[j] == teams[j]
    ensures i1 != i2 ==> (r[i1].elo, r[i2].elo) == UpdateElos(q, teams[i1].elo, teams[i2].elo, t1Prob, t2Prob)
    ensures i1 == i2 ==>
      && r[i1].elo == UpdateElos(q, teams[i1].elo, teams[i2].elo, t1Prob, t2Prob).1
      && r[i1].matchesFor == teams[i1].matchesFor + 1
      && r[i1].matchesAgainst == teams[i1].matchesAgainst + 1
  {
    OutcomeNames(q, teams, i1, i2, team1Wins, t1Prob, t2Prob);
    OutcomeTallies(q, teams, i1, i2, team1Wins, t1Prob, t2Prob);
    OutcomePlayoffs(q, teams, i1, i2, team1Wins, t1Prob, t2Prob);
    OutcomeEloTotal(q, teams, i1, i2, team1Wins, t1Prob, t2Prob);
    OutcomeSides(q, teams, i1, i2, team1Wins, t1Prob, t2Prob);
    OutcomeFrame(q, teams, i1, i2, team1Wins, t1Prob, t2Prob);
    Outcome(q, teams, i1, i2, team1Wins, t1Prob, t2Prob)
  }

  /** The winner and loser credited, then both ratings written back. */
  function Outcome(q: Curve, teams: seq<Team>, i1: nat, i2: nat, team1Wins: bool, t1Prob: real, t2Prob: real): seq<Team>
    requires i1 < |teams| && i2 < |teams|
  {
    if team1Wins then History.Rate(q, Credit(teams, i1, i2), i1, i2, t1Prob, t2Prob)
    else History.Rate(q, Credit(teams, i2, i1), i1, i2, t1Prob, t2Prob)
  }

  lemma OutcomeNames(q: Curve, teams: seq<Team>, i1: nat, i2: nat, team1Wins: bool, t1Prob: real, t2Prob: real)
    requires i1 < |teams| && i2 < |teams|
    requires t1Prob == (if team1Wins then 1.0 else 0.0) && t2Prob == 1.0 - t1Prob
    ensures var r := Outcome(q, teams, i1, i2, team1Wins, t1Prob, t2Prob);
      && SameNames(teams, r)
      && (forall j :: 0 <= j < |teams| ==> r[j].numPlayoffs == teams[j].numPlayoffs)
  {
    if team1Wins {
      var c := Credit(teams, i1, i2);
      assert Outcome(q, teams, i1, i2, team1Wins, t1Prob, t2Prob) == History.Rate(q, c, i1, i2, t1Prob, t2Prob);
    } else {
      var c := Credit(teams, i2, i1);
      assert Outcome(q, teams, i1, i2, team1Wins, t1Prob, t2Prob) == History.Rate(q, c, i1, i2, t1Prob, t2Prob);
    }
  }

  lemma OutcomeTallies(q: Curve, teams: seq<Team>, i1: nat, i2: nat, team1Wins: bool, t1Prob: real, t2Prob: real)
    requires i1 < |teams| && i2 < |teams|
    requires t1Prob == (if team1Wins then 1.0 else 0.0) && t2Prob == 1.0 - t1Prob
    ensures var r := Outcome(q, teams, i1, i2, team1Wins, t1Prob, t2Prob);
      && Total(r, WinsOf) == Total(teams, WinsOf) + 1.0
      && Total(r, LossesOf) == Total(teams, LossesOf) + 1.0
  {
    if team1Wins {
      var c := Credit(teams, i1, i2);
      assert Outcome(q, teams, i1, i2, team1Wins, t1Prob, t2Prob) == History.Rate(q, c, i1, i2, t1Prob, t2Prob);
    } else {
      var c := Credit(teams, i2, i1);
      assert Outcome(q, teams, i1, i2, team1Wins, t1Prob, t2Prob) == History.Rate(q, c, i1, i2, t1Prob, t2Prob);
    }
  }

  lemma OutcomePlayoffs(q: Curve, teams: seq<Team>, i1: nat, i2: nat, team1Wins: bool, t1Prob: real, t2Prob: real)
    requires i1 < |teams| && i2 < |teams|
    requires t1Prob == (if team1Wins then 1.0 else 0.0) && t2Prob == 1.0 - t1Prob
    ensures var r := Outcome(q, teams, i1, i2, team1Wins, t1Prob, t2Prob);
      Total(r, PlayoffsOf) == Total(teams, PlayoffsOf)
  {
    if team1Wins {
      var c := Credit(teams, i1, i2);
      assert Outcome(q, teams, i1, i2, team1Wins, t1Prob, t2Prob) == History.Rate(q, c, i1, i2, t1Prob, t2Prob);
    } else {
      var c := Credit(teams, i2, i1);
      assert Outcome(q, teams, i1, i2, team1Wins, t1Prob, t2Prob) == History.Rate(q, c, i1, i2, t1Prob, t2Prob);
    }
  }

  lemma OutcomeEloTotal(q: Curve, teams: seq<Team>, i1: nat, i2: nat, team1Wins: bool, t1Prob: real, t2Prob: real)
    requires i1 < |teams| && i2 < |teams|
    requires t1Prob == (if team1Wins then 1.0 else 0.0) && t2Prob == 1.0 - t1Prob
    ensures var r := Outcome(q, teams, i1, i2, team1Wins, t1Prob, t2Prob);
      i1 != i2 ==> Total(r, EloOf) == Total(teams, EloOf)
  {
    if team1Wins {
      var c := Credit(teams, i1, i2);
      assert Outcome(q, teams, i1, i2, team1Wins, t1Prob, t2Prob) == History.Rate(q, c, i1, i2, t1Prob, t2Prob);
    } else {
      var c := Credit(teams, i2, i1);
      assert Outcome(q, teams, i1, i2, team1Wins, t1Prob, t2Prob) == History.Rate(q, c, i1, i2, t1Prob, t2Prob);
    }
  }

  lemma OutcomeSides(q: Curve, teams: seq<Team>, i1: nat, i2: nat, team1Wins: bool, t1Prob: real, t2Prob: real)
    requires i1 < |teams| && i2 < |teams|
    requires t1Prob == (if team1Wins then 1.0 else 0.0) && t2Prob == 1.0 - t1Prob
    ensures var r := Outcome(q, teams, i1, i2, team1Wins, t1Prob, t2Prob);
      i1 != i2 ==>
      && r[i1].matchesFor == teams[i1].matchesFor + (if team1Wins then 1 else 0)
      && r[i2].matchesFor == teams[i2].matchesFor + (if team1Wins then 0 else 1)
      && r[i1].matchesAgainst == teams[i1].matchesAgainst + (if team1Wins then 0 else 1)
      && r[i2].matchesAgainst == teams[i2].matchesAgainst + (if team1Wins then 1 else 0)
      && (r[i1].elo > teams[i1].elo <==> team1Wins)
      && (r[i2].elo > teams[i2].elo <==> !team1Wins)
      && (r[i1].elo, r[i2].elo) == UpdateElos(q, teams[i1].elo, teams[i2].elo, t1Prob, t2Prob)
  {
  }

  lemma OutcomeFrame(q: Curve, teams: seq<Team>, i1: nat, i2: nat, team1Wins: bool, t1Prob: real, t2Prob: real)
    requires i1 < |teams| && i2 < |teams|
    ensures var r := Outcome(q, teams, i1, i2, team1Wins, t1Prob, t2Prob);
      && (forall j :: 0 <= j < |teams| && j != i1 && j != i2 ==> r[j] == teams[j])
      && (i1 == i2 ==>
          && r[i1].elo == UpdateElos(q, teams[i1].elo, teams[i2].elo, t1Prob, t2Prob).1
          && r[i1].matchesFor == teams[i1].matchesFor + 1
          && r[i1].matchesAgainst == teams[i1].matchesAgainst + 1)
  {
  }

  /** One trial's pass over the schedule, `draws[k]` deciding the k-th match. */
  function Play(q: Curve, ms: seq<Match>, teams: seq<Team>, draws: seq<real>): (r: Result<seq<Team>>)
    requires |draws| == |ms|
    ensures r.Ok? <==> forall m :: m in ms && !m.completed ==> Season.Knows(teams, m)
    ensures r.Ok? ==> SameNames(teams, r.value)
    ensures r.Ok? ==> forall j :: 0 <= j < |teams| ==> r.value[j].numPlayoffs == teams[j].numPlayoffs
    ensures r.Ok? ==>
      && Total(r.value, WinsOf) == Total(teams, WinsOf) + Pending(ms) as real
      && Total(r.value, LossesOf) == Total(teams, LossesOf) + Pending(ms) as real
    ensures r.Ok? && History.NoSelfMatches(ms) ==> Total(r.value, EloOf) == Total(teams, EloOf)
    decreases |ms|
  {
    if |ms| == 0 then Ok(teams)
    else
      assert ms == [ms[0]] + ms[1..];
      match PlayMatch(q, ms[0], teams, draws[0])
      case UnknownTeam(name) => UnknownTeam(name)
      case Ok(next) =>
        forall name ensures Find(next, name) == Find(teams, name) {
          FindSameNames(next, teams, name);
        }
        Play(q, ms[1..], next, draws[1..])
  }

  /** How many sides of the unplayed matches of `ms` are `name`; a match against itself counts twice. */
  function Appearances(ms: seq<Match>, name: string): nat {
    if |ms| == 0 then 0
    else
      (if ms[0].completed then 0
       else (if ms[0].team1 == name then 1 else 0) + (if ms[0].team2 == name then 1 else 0))
      + Appearances(ms[1..], name)
  }

  /**
    One simulated match adds one match, for or against, to each side it names, and
    leaves every team it does not name exactly as it was.
   */
  lemma PlayMatchPerTeam(q: Curve, m: Match, teams: seq<Team>, draw: real, j: int)
    requires UniqueNames(teams) && 0 <= j < |teams|
    requires PlayMatch(q, m, teams, draw).Ok?
    ensures var r := PlayMatch(q, m, teams, draw).value;
      && r[j].matchesFor + r[j].matchesAgainst
         == teams[j].matchesFor + teams[j].matchesAgainst + Appearances([m], teams[j].name)
      && (Appearances([m], teams[j].name) == 0 ==> r[j] == teams[j])
  {
    var name := teams[j].name;
    assert [m][1..] == [];
    if !m.completed {
      var i1, i2 := Find(teams, m.team1).value, Find(teams, m.team2).value;
      FindUnique(teams, j);
      assert (j == i1) == (name == m.team1) && (j == i2) == (name == m.team2);
      assert Appearances([m], name) == (if j == i1 then 1 else 0) + (if j == i2 then 1 else 0);
      var team1Wins := draw < Expected(q, teams[i1].elo, teams[i2].elo);
      var t1Prob := if team1Wins then 1.0 else 0.0;
      PlayMatchDecides(q, m, teams, draw);
      DecidePerTeam(q, teams, i1, i2, team1Wins, t1Prob, 1.0 - t1Prob, j);
    } else {
      assert Appearances([m], name) == 0;
    }
  }

  /** An unplayed match between registered teams is `Decide` on the drawn winner. */
  lemma PlayMatchDecides(q: Curve, m: Match, teams: seq<Team>, draw: real)
    requires PlayMatch(q, m, teams, draw).Ok? && !m.completed
    ensures var i1, i2 := Find(teams, m.team1).value, Find(teams, m.team2).value;
      var team1Wins := draw < Expected(q, teams[i1].elo, teams[i2].elo);
      var t1Prob := if team1Wins then 1.0 else 0.0;
      PlayMatch(q, m, teams, draw).value == Decide(q, teams, i1, i2, team1Wins, t1Prob, 1.0 - t1Prob)
  {
  }

  /** `Decide` adds one match to each side it is given and leaves every other team as it was. */
  lemma DecidePerTeam(q: Curve, teams: seq<Team>, i1: nat, i2: nat, team1Wins: bool, t1Prob: real, t2Prob: real, j: int)
    requires i1 < |teams| && i2 < |teams| && 0 <= j < |teams|
    requires t1Prob == (if team1Wins then 1.0 else 0.0) && t2Prob == 1.0 - t1Prob
    ensures var r := Decide(q, teams, i1, i2, team1Wins, t1Prob, t2Prob);
      && r[j].matchesFor + r[j].matchesAgainst
         == teams[j].matchesFor + teams[j].matchesAgainst + (if j == i1 then 1 else 0) + (if j == i2 then 1 else 0)
      && (j != i1 && j != i2 ==> r[j] == teams[j])
  {
  }

  /**
    Over a trial's pass, a team's matches grow by the number of its sides among the
    unplayed matches, and a team that no unplayed match names ends exactly as it
    started, rating included.
   */
  lemma {:induction false} PlayPerTeam(q: Curve, ms: seq<Match>, teams: seq<Team>, draws: seq<real>, j: int)
    requires |draws| == |ms| && UniqueNames(teams) && 0 <= j < |teams|
    requires Play(q, ms, teams, draws).Ok?
    ensures var r := Play(q, ms, teams, draws).value;
      && r[j].matchesFor + r[j].matchesAgainst
         == teams[j].matchesFor + teams[j].matchesAgainst + Appearances(ms, teams[j].name)
      && (Appearances(ms, teams[j].name) == 0 ==> r[j] == teams[j])
    decreases |ms|
  {
    if |ms| > 0 {
      var next := PlayMatch(q, ms[0], teams, draws[0]).value;
      PlayMatchPerTeam(q, ms[0], teams, draws[0], j);
      SameNamesUnique(teams, next);
      assert Play(q, ms, teams, draws) == Play(q, ms[1..], next, draws[1..]);
      PlayPerTeam(q, ms[1..], next, draws[1..], j);
      AppearancesSplit(ms, teams[j].name);
    }
  }

  lemma AppearancesSplit(ms: seq<Match>, name: string)
    requires |ms| > 0
    ensures Appearances(ms, name) == Appearances([ms[0]], name) + Appearances(ms[1..], name)
  {
    assert [ms[0]][1..] == [];
  }

  /** Both sides of every unplayed match of `ms` are registered in `teams`. */
  ghost predicate Resolves(ms: seq<Match>, teams: seq<Team>) {
    forall m :: m in ms && !m.completed ==> Season.Knows(teams, m)
  }

  /** Whether a schedule resolves depends only on the roster's names. */
  lemma ResolvesSameNames(ms: seq<Match>, a: seq<Team>, b: seq<Team>)
    requires SameNames(a, b)
    ensures Resolves(ms, a) <==> Resolves(ms, b)
  {
    forall name ensures Find(a, name) == Find(b, name) {
      FindSameNames(a, b, name);
    }
  }

  /** The ranking of a ROLLING trial has no jitter: ties in wins keep roster order. */
  function NoJitter(n: nat): (r: seq<real>)
    ensures |r| == n && forall i :: 0 <= i < n ==> r[i] == 0.0
  {
    seq(n, _ => 0.0)
  }

  /**
    One trial: play the season out on copies, then credit the copy's top four on
    the canonical roster. Only the playoff counts of the canonical teams change.
   */
  function Trial(q: Curve, ms: seq<Match>, teams: seq<Team>, draws: seq<real>): (r: Result<seq<Team>>)
    requires |draws| == |ms|
    ensures r.Ok? <==> Resolves(ms, teams)
    ensures r.Ok? ==> SameNames(teams, r.value)
    ensures r.Ok? ==> forall j :: 0 <= j < |teams| ==>
      && r.value[j].elo == teams[j].elo
      && r.value[j].matchesFor == teams[j].matchesFor
      && r.value[j].matchesAgainst == teams[j].matchesAgainst
    ensures r.Ok? ==>
      Total(r.value, PlayoffsOf) == Total(teams, PlayoffsOf) + Playoffs.Min(Playoffs.PlayoffSlots, |teams|) as real
  {
    match Play(q, ms, teams, draws)
    case UnknownTeam(name) => UnknownTeam(name)
    case Ok(played) => Playoffs.PlayoffRound(teams, played, NoJitter(|played|))
  }

  /**
    The forecast: one trial per element of `trials`, each adding min(4, number of
    teams) playoff appearances in all and leaving ratings and tallies as they were.
   */
  function SimulateSeason(q: Curve, ms: seq<Match>, teams: seq<Team>, trials: seq<seq<real>>): (r: Result<seq<Team>>)
    requires forall k :: 0 <= k < |trials| ==> |trials[k]| == |ms|
    ensures r.Ok? <==> |trials| == 0 || Resolves(ms, teams)
    ensures r.Ok? ==> SameNames(teams, r.value)
    ensures r.Ok? ==> forall j :: 0 <= j < |teams| ==>
      && r.value[j].elo == teams[j].elo
      && r.value[j].matchesFor == teams[j].matchesFor
      && r.value[j].matchesAgainst == teams[j].matchesAgainst
    ensures r.Ok? ==>
      Total(r.value, PlayoffsOf) == Total(teams, PlayoffsOf) + (|trials| * Playoffs.Min(Playoffs.PlayoffSlots, |teams|)) as real
    decreases |trials|
  {
    if |trials| == 0 then Ok(teams)
    else match Trial(q, ms, teams, trials[0])
      case UnknownTeam(name) => UnknownTeam(name)
      case Ok(next) =>
        assert Resolves(ms, teams);
        ResolvesSameNames(ms, teams, next);
        var rest := SimulateSeason(q, ms, next, trials[1..]);
        Playoffs.RoundsCompose(teams, next, rest.value, |trials[1..]|, Playoffs.Min(Playoffs.PlayoffSlots, |next|));
        assert |trials[1..]| + 1 == |trials|;
        rest
  }

  /** The forecast after a successful first trial is the forecast of the rest on its result. */
  lemma SimulateSeasonUnfold(q: Curve, ms: seq<Match>, teams: seq<Team>, trials: seq<seq<real>>)
    requires forall k :: 0 <= k < |trials| ==> |trials[k]| == |ms|
    requires |trials| > 0 && Trial(q, ms, teams, trials[0]).Ok?
    ensures SimulateSeason(q, ms, teams, trials) == SimulateSeason(q, ms, Trial(q, ms, teams, trials[0]).value, trials[1..])
  {
  }

  /** In one trial a team makes the playoffs at most once. */
  lemma TrialOncePerTeam(q: Curve, ms: seq<Match>, teams: seq<Team>, draws: seq<real>, j: int)
    requires |draws| == |ms| && UniqueNames(teams) && 0 <= j < |teams|
    requires Trial(q, ms, teams, draws).Ok?
    ensures teams[j].numPlayoffs <= Trial(q, ms, teams, draws).value[j].numPlayoffs <= teams[j].numPlayoffs + 1
  {
    var played := Play(q, ms, teams, draws).value;
    Playoffs.PlayoffRoundOncePerTeam(teams, played, NoJitter(|played|), j);
  }

  /**
    Over the whole forecast a team's playoff count grows by at most the number of
    trials, so its playoff frequency is a proportion between 0 and 1.
   */
  lemma {:induction false} SimulateSeasonPerTeam(q: Curve, ms: seq<Match>, teams: seq<Team>, trials: seq<seq<real>>, j: int)
    requires forall k :: 0 <= k < |trials| ==> |trials[k]| == |ms|
    requires UniqueNames(teams) && 0 <= j < |teams|
    requires SimulateSeason(q, ms, teams, trials).Ok?
    ensures var r := SimulateSeason(q, ms, teams, trials).value;
      teams[j].numPlayoffs <= r[j].numPlayoffs <= teams[j].numPlayoffs + |trials|
    decreases |trials|
  {
    if |trials| > 0 {
      var next := Trial(q, ms, teams, trials[0]).value;
      TrialOncePerTeam(q, ms, teams, trials[0], j);
      SameNamesUnique(teams, next);
      SimulateSeasonUnfold(q, ms, teams, trials);
      forall k | 0 <= k < |trials[1..]| ensures |trials[1..][k]| == |ms| {
        assert trials[1..][k] == trials[k + 1];
      }
      SimulateSeasonPerTeam(q, ms, next, trials[1..], j);
    }
  }
}

=== FILE: season.dfy ===
/**
  `read_season` after parsing: build one match per schedule row, sort the matches
  by date, register teams, and tally the recorded results.

  Both scripts share this code; the simulation script additionally marks every
  match that already had a score in the input as `orig_completed`
  (`markOriginal` below).
 */
module Season {
  import opened Model
  import Sorting

  /** One schedule row after its date and score were parsed; `score` is None for an unplayed match. */
  datatype Fixture = Fixture(home: string, away: string, mapName: string, date: Date, score: Option<(int, int)>)

  /** A loaded season: matches in replay order and the roster. */
  datatype SeasonData = SeasonData(matches: seq<Match>, teams: seq<Team>)

  /** The match built for one schedule row. */
  function MakeMatch(f: Fixture, markOriginal: bool): (m: Match)
    ensures m.team1 == f.home && m.team2 == f.away && m.mapName == f.mapName && m.date == f.date
    ensures m.completed <==> f.score.Some?
    ensures m.origCompleted <==> markOriginal && f.score.Some?
    ensures f.score.Some? ==> m.team1Score == f.score.value.0 && m.team2Score == f.score.value.1
    ensures Consistent(m)
  {
    var m := NewMatch(f.home, f.away, f.mapName, f.date);
    match f.score
    case None => m
    case Some((s1, s2)) =>
      var played := SetScores(m, s1, s2);
      if markOriginal then played.(origCompleted := true) else played
  }

  /** The matches in schedule-row order, before sorting. */
  function MakeMatches(fs: seq<Fixture>, markOriginal: bool): (ms: seq<Match>)
    ensures |ms| == |fs|
    ensures forall i :: 0 <= i < |fs| ==> ms[i] == MakeMatch(fs[i], markOriginal)
  {
    if |fs| == 0 then [] else [MakeMatch(fs[0], markOriginal)] + MakeMatches(fs[1..], markOriginal)
  }

  function DateKey(m: Match): real { m.date as real }

  /**
    `matches.sort(key = lambda match: match.date)`: ascending by date, and matches
    on the same date keep their schedule order.
   */
  function SortByDate(ms: seq<Match>): (r: seq<Match>)
    ensures multiset(r) == multiset(ms)
    ensures forall i, j :: 0 <= i < j < |r| ==> r[i].date <= r[j].date
    ensures Sorting.KeepsTies(ms, r, DateKey)
  {
    var r := Sorting.Sort(ms, DateKey);
    assert forall i, j :: 0 <= i < j < |r| ==> DateKey(r[i]) <= DateKey(r[j]);
    r
  }

  /** `starting_elos` of the rolling script. */
  const RollingStartingElos: map<string, real> := map["froyotech" := 1500.0, "Ascent" := 1500.0]

  /** The rating a team is registered with: its supplied starting rating, else the default. */
  function StartingElo(starting: map<string, real>, name: string): real {
    if name in starting then starting[name] else DefaultElo
  }

  /** A team as registered: fresh, at its starting rating. */
  function Registration(starting: map<string, real>, name: string): (t: Team)
    ensures t.name == name && t.matchesFor == 0 && t.matchesAgainst == 0 && t.numPlayoffs == 0
    ensures name in starting ==> t.elo == starting[name]
    ensures name !in starting ==> t.elo == DefaultElo
  {
    NewTeam(name).(elo := StartingElo(starting, name))
  }

  /** Registers `name` unless a team of that name is already in the roster. */
  function Enrol(teams: seq<Team>, starting: map<string, real>, name: string): (r: seq<Team>)
    requires UniqueNames(teams)
    ensures UniqueNames(r)
    ensures Find(teams, name).Some? ==> r == teams
    ensures Find(teams, name).None? ==> r == teams + [Registration(starting, name)]
    ensures |teams| <= |r| && r[..|teams|] == teams
    ensures forall n :: Find(r, n).Some? <==> Find(teams, n).Some? || n == name
  {
    if Find(teams, name).Some? then teams
    else
      var r := teams + [Registration(starting, name)];
      forall n ensures Find(r, n).Some? <==> Find(teams, n).Some? || n == name {
        if Find(teams, n).Some? {
          assert r[Find(teams, n).value].name == n;
        }
        if n == name {
          assert r[|teams|].name == n;
        }
      }
      r
  }

  /** The names a registration pass over `ms` adds: every team1, and every team2 when `bothSides`. */
  predicate Listed(ms: seq<Match>, name: string, bothSides: bool) {
    |ms| > 0 && (ms[0].team1 == name || (bothSides && ms[0].team2 == name) || Listed(ms[1..], name, bothSides))
  }

  /** `Listed` holds exactly when some match of `ms` names the team on a registering side. */
  lemma {:induction false} ListedMember(ms: seq<Match>, name: string, bothSides: bool)
    ensures Listed(ms, name, bothSides) <==> exists m :: m in ms && (m.team1 == name || (bothSides && m.team2 == name))
  {
    if |ms| > 0 {
      ListedMember(ms[1..], name, bothSides);
      assert ms == [ms[0]] + ms[1..];
      if exists m :: m in ms && (m.team1 == name || (bothSides && m.team2 == name)) {
        var m :| m in ms && (m.team1 == name || (bothSides && m.team2 == name));
        if m != ms[0] {
          assert m in ms[1..];
        }
      }
    }
  }

  /** The sides a registration pass looks at, match by match: team1, then team2 when `bothSides`. */
  function Sides(ms: seq<Match>, bothSides: bool): seq<string> {
    if |ms| == 0 then []
    else [ms[0].team1] + ((if bothSides then [ms[0].team2] else []) + Sides(ms[1..], bothSides))
  }

  /**
    The names of `names` in order of first appearance, each once, leaving out those
    in `seen`: the order in which a dict first meets them.
   */
  function FirstSeen(names: seq<string>, seen: set<string>): seq<string> {
    if |names| == 0 then []
    else if names[0] in seen then FirstSeen(names[1..], seen)
    else [names[0]] + FirstSeen(names[1..], seen + {names[0]})
  }

  /** The first-met names are exactly the names not in `seen`, each listed once. */
  lemma {:induction false} FirstSeenOnce(names: seq<string>, seen: set<string>)
    ensures forall x :: x in FirstSeen(names, seen) <==> x in names && x !in seen
    ensures forall i, j :: 0 <= i < j < |FirstSeen(names, seen)| ==> FirstSeen(names, seen)[i] != FirstSeen(names, seen)[j]
    decreases |names|
  {
    if |names| > 0 {
      assert forall x :: x in names <==> x == names[0] || x in names[1..];
      if names[0] in seen {
        FirstSeenOnce(names[1..], seen);
      } else {
        var rest := FirstSeen(names[1..], seen + {names[0]});
        FirstSeenOnce(names[1..], seen + {names[0]});
        var r := [names[0]] + rest;
        forall i, j | 0 <= i < j < |r| ensures r[i] != r[j] {
          assert r[j] == rest[j - 1];
          if i > 0 {
            assert r[i] == rest[i - 1];
          }
        }
      }
    }
  }

  /** The names of a roster, in roster order. */
  function NamesOf(teams: seq<Team>): (r: seq<string>)
    ensures |r| == |teams| && forall i :: 0 <= i < |teams| ==> r[i] == teams[i].name
  {
    seq(|teams|, i requires 0 <= i < |teams| => teams[i].name)
  }

  /** The names registered in a roster. */
  function Known(teams: seq<Team>): set<string> {
    set n | n in NamesOf(teams)
  }

  /**
    The registration loop. `read_season` registers only `match.team1`
    (`bothSides == false`); `bothSides == true` also registers `match.team2`. New
    teams are appended in the order their names are first met, which is the order
    the scripts' dict iterates them in.
   */
  function Register(ms: seq<Match>, starting: map<string, real>, teams: seq<Team>, bothSides: bool): (r: seq<Team>)
    requires UniqueNames(teams)
    ensures UniqueNames(r)
    ensures |teams| <= |r| && r[..|teams|] == teams
    ensures forall i :: |teams| <= i < |r| ==> r[i] == Registration(starting, r[i].name)
    ensures forall name :: Find(r, name).Some? <==> Find(teams, name).Some? || Listed(ms, name, bothSides)
    ensures NamesOf(r) == NamesOf(teams) + FirstSeen(Sides(ms, bothSides), Known(teams))
    decreases |ms|
  {
    if |ms| == 0 then teams
    else
      var once := Enrol(teams, starting, ms[0].team1);
      var twice := if bothSides then Enrol(once, starting, ms[0].team2) else once;
      var r := Register(ms[1..], starting, twice, bothSides);
      RegisterStep(ms, starting, teams, once, twice, r, bothSides);
      RegisterOrderStep(ms, starting, teams, once, twice, r, bothSides);
      r
  }

  /** One match of registration appends the match's new names, in order, to the roster's names. */
  lemma RegisterOrderStep(ms: seq<Match>, starting: map<string, real>, teams: seq<Team>, once: seq<Team>,
                          twice: seq<Team>, r: seq<Team>, bothSides: bool)
    requires |ms| > 0 && UniqueNames(teams) && UniqueNames(once)
    requires once == Enrol(teams, starting, ms[0].team1)
    requires twice == if bothSides then Enrol(once, starting, ms[0].team2) else once
    requires NamesOf(r) == NamesOf(twice) + FirstSeen(Sides(ms[1..], bothSides), Known(twice))
    ensures NamesOf(r) == NamesOf(teams) + FirstSeen(Sides(ms, bothSides), Known(teams))
  {
    var t1, t2, rest := ms[0].team1, ms[0].team2, Sides(ms[1..], bothSides);
    SidesFirst(ms, bothSides);
    EnrolNames(teams, starting, t1);
    if bothSides {
      EnrolNames(once, starting, t2);
      OrderChainBoth(NamesOf(teams), NamesOf(r), Known(teams), t1, t2, rest);
    } else {
      OrderChainOne(NamesOf(teams), NamesOf(r), Known(teams), t1, rest);
    }
  }

  /** The sides of a schedule start with its first match's registered sides. */
  lemma SidesFirst(ms: seq<Match>, bothSides: bool)
    requires |ms| > 0
    ensures bothSides ==> Sides(ms, bothSides) == [ms[0].team1] + ([ms[0].team2] + Sides(ms[1..], bothSides))
    ensures !bothSides ==> Sides(ms, bothSides) == [ms[0].team1] + Sides(ms[1..], bothSides)
  {
  }

  /** The name a match's registration may append, followed by those of the rest, are the names first met. */
  lemma OrderChainOne(nTeams: seq<string>, nR: seq<string>, seen: set<string>, t1: string, rest: seq<string>)
    requires nR == (nTeams + (if t1 in seen then [] else [t1])) + FirstSeen(rest, seen + {t1})
    ensures nR == nTeams + FirstSeen([t1] + rest, seen)
  {
    FirstSeenCons(t1, rest, seen);
  }

  /** The same for a match whose two sides are both registered. */
  lemma OrderChainBoth(nTeams: seq<string>, nR: seq<string>, seen: set<string>, t1: string, t2: string, rest: seq<string>)
    requires nR == ((nTeams + (if t1 in seen then [] else [t1])) + (if t2 in seen + {t1} then [] else [t2]))
                   + FirstSeen(rest, seen + {t1} + {t2})
    ensures nR == nTeams + FirstSeen([t1] + ([t2] + rest), seen)
  {
    FirstSeenCons(t2, rest, seen + {t1});
    FirstSeenCons(t1, [t2] + rest, seen);
    Regroup(nTeams, nR, if t1 in seen then [] else [t1], if t2 in seen + {t1} then [] else [t2],
            FirstSeen(rest, seen + {t1} + {t2}), FirstSeen([t2] + rest, seen + {t1}),
            FirstSeen([t1] + ([t2] + rest), seen));
  }

  /** Appending two pieces and a tail in turn is appending what they make together. */
  lemma Regroup<T>(w: seq<T>, n: seq<T>, a: seq<T>, b: seq<T>, f: seq<T>, g: seq<T>, h: seq<T>)
    requires n == ((w + a) + b) + f && g == b + f && h == a + g
    ensures n == w + h
  {
  }

  /** Enrolling a name appends it to the roster's names unless it is already known. */
  lemma EnrolNames(teams: seq<Team>, starting: map<string, real>, name: string)
    requires UniqueNames(teams)
    ensures NamesOf(Enrol(teams, starting, name)) == NamesOf(teams) + (if name in Known(teams) then [] else [name])
    ensures Known(Enrol(teams, starting, name)) == Known(teams) + {name}
  {
    var r := Enrol(teams, starting, name);
    assert name in Known(teams) <==> Find(teams, name).Some? by {
      if name in Known(teams) {
        var i :| 0 <= i < |teams| && NamesOf(teams)[i] == name;
      }
      if Find(teams, name).Some? {
        assert NamesOf(teams)[Find(teams, name).value] == name;
      }
    }
    if name !in Known(teams) {
      assert NamesOf(r) == NamesOf(teams) + [name];
      forall n ensures n in Known(r) <==> n in Known(teams) || n == name {
        assert n in NamesOf(r) <==> n in NamesOf(teams) || n == name;
      }
    }
  }

  /** The first name of a list is first met before all the others. */
  lemma FirstSeenCons(a: string, rest: seq<string>, seen: set<string>)
    ensures FirstSeen([a] + rest, seen) == (if a in seen then [] else [a]) + FirstSeen(rest, seen + {a})
  {
    assert ([a] + rest)[0] == a && ([a] + rest)[1..] == rest;
    if a in seen {
      assert seen + {a} == seen;
    }
  }

  lemma RegisterStep(ms: seq<Match>, starting: map<string, real>, teams: seq<Team>, once: seq<Team>,
                     twice: seq<Team>, r: seq<Team>, bothSides: bool)
    requires |ms| > 0 && UniqueNames(teams) && UniqueNames(once)
    requires once == Enrol(teams, starting, ms[0].team1)
    requires twice == if bothSides then Enrol(once, starting, ms[0].team2) else once
    requires |twice| <= |r| && r[..|twice|] == twice
    requires forall i :: |twice| <= i < |r| ==> r[i] == Registration(starting, r[i].name)
    requires forall name :: Find(r, name).Some? <==> Find(twice, name).Some? || Listed(ms[1..], name, bothSides)
    ensures |teams| <= |r| && r[..|teams|] == teams
    ensures forall i :: |teams| <= i < |r| ==> r[i] == Registration(starting, r[i].name)
    ensures forall name :: Find(r, name).Some? <==> Find(teams, name).Some? || Listed(ms, name, bothSides)
  {
    EnrolExtends(teams, once, starting, ms[0].team1);
    if bothSides {
      EnrolExtends(once, twice, starting, ms[0].team2);
      PrefixExtend(teams, once, twice, starting);
    }
    PrefixExtend(teams, twice, r, starting);
    forall name ensures Find(r, name).Some? <==> Find(teams, name).Some? || Listed(ms, name, bothSides) {
      assert Find(twice, name).Some? <==>
        Find(teams, name).Some? || ms[0].team1 == name || (bothSides && ms[0].team2 == name);
    }
  }

  lemma EnrolExtends(teams: seq<Team>, r: seq<Team>, starting: map<string, real>, name: string)
    requires UniqueNames(teams) && r == Enrol(teams, starting, name)
    ensures |teams| <= |r| && r[..|teams|] == teams
    ensures forall i :: |teams| <= i < |r| ==> r[i] == Registration(starting, r[i].name)
  {
  }

  lemma PrefixExtend(a: seq<Team>, b: seq<Team>, c: seq<Team>, starting: map<string, real>)
    requires |a| <= |b| && b[..|a|] == a && forall i :: |a| <= i < |b| ==> b[i] == Registration(starting, b[i].name)
    requires |b| <= |c| && c[..|b|] == b && forall i :: |b| <= i < |c| ==> c[i] == Registration(starting, c[i].name)
    ensures |a| <= |c| && c[..|a|] == a && forall i :: |a| <= i < |c| ==> c[i] == Registration(starting, c[i].name)
  {
    assert forall i :: |a| <= i < |b| ==> c[i] == b[i];
  }

  /** Both sides of `m` are registered. */
  predicate Knows(teams: seq<Team>, m: Match) {
    Find(teams, m.team1).Some? && Find(teams, m.team2).Some?
  }

  /** How many matches of `ms` have a recorded result. */
  function CompletedCount(ms: seq<Match>): nat {
    if |ms| == 0 then 0 else (if ms[0].completed then 1 else 0) + CompletedCount(ms[1..])
  }

  /**
    The tally loop: every recorded result credits a match for to the winner and a
    match against to the loser. Looking up a side that was never registered is the
    script's `KeyError`.
   */
  function Tally(ms: seq<Match>, teams: seq<Team>): (r: Result<seq<Team>>)
    ensures r.Ok? <==> forall m :: m in ms && m.completed ==> Knows(teams, m)
    ensures r.Ok? ==> SameNames(teams, r.value)
    ensures r.Ok? ==> forall j :: 0 <= j < |teams| ==>
      r.value[j].elo == teams[j].elo && r.value[j].numPlayoffs == teams[j].numPlayoffs
    ensures r.Ok? ==> Total(r.value, WinsOf) == Total(teams, WinsOf) + CompletedCount(ms) as real
    ensures r.Ok? ==> Total(r.value, LossesOf) == Total(teams, LossesOf) + CompletedCount(ms) as real
    decreases |ms|
  {
    if |ms| == 0 then Ok(teams)
    else
      var m := ms[0];
      assert ms == [m] + ms[1..];
      if !m.completed then Tally(ms[1..], teams)
      else match (Find(teams, m.team1), Find(teams, m.team2))
        case (None, _) => UnknownTeam(m.team1)
        case (Some(_), None) => UnknownTeam(m.team2)
        case (Some(i1), Some(i2)) =>
          var credited := if m.winner == m.team1 then Credit(teams, i1, i2) else Credit(teams, i2, i1);
          var r := Tally(ms[1..], credited);
          TallyStep(ms, teams, credited, r);
          r
  }

  lemma TallyStep(ms: seq<Match>, teams: seq<Team>, credited: seq<Team>, r: Result<seq<Team>>)
    requires |ms| > 0 && ms[0].completed && Knows(teams, ms[0]) && SameNames(teams, credited)
    requires r.Ok? <==> forall m :: m in ms[1..] && m.completed ==> Knows(credited, m)
    ensures r.Ok? <==> forall m :: m in ms && m.completed ==> Knows(teams, m)
  {
    assert ms == [ms[0]] + ms[1..];
    forall name ensures Find(credited, name) == Find(teams, name) {
      FindSameNames(credited, teams, name);
    }
  }

  /**
    The tally gives every registered team one match for per result it won and one
    match against per result it lost, when names are unique and results consistent.
   */
  lemma {:induction false} TallyCounts(ms: seq<Match>, teams: seq<Team>, j: int)
    requires UniqueNames(teams) && 0 <= j < |teams|
    requires forall m :: m in ms ==> Consistent(m)
    requires Tally(ms, teams).Ok?
    ensures Tally(ms, teams).value[j].matchesFor == teams[j].matchesFor + Wins(ms, teams[j].name)
    ensures Tally(ms, teams).value[j].matchesAgainst == teams[j].matchesAgainst + Losses(ms, teams[j].name)
    decreases |ms|
  {
    if |ms| > 0 {
      var m := ms[0];
      assert ms == [m] + ms[1..];
      if !m.completed {
        TallyCounts(ms[1..], teams, j);
      } else {
        var i1, i2 := Find(teams, m.team1).value, Find(teams, m.team2).value;
        var credited := if m.winner == m.team1 then Credit(teams, i1, i2) else Credit(teams, i2, i1);
        assert m in ms;
        CreditCounts(m, teams, credited, j);
        TallyCounts(ms[1..], credited, j);
      }
    }
  }

  /** The tally of a schedule that starts with a resolvable result: credit it, then go on. */
  lemma TallyFirst(ms: seq<Match>, teams: seq<Team>)
    requires |ms| > 0 && ms[0].completed && Knows(teams, ms[0])
    ensures Tally(ms, teams) == (
      var i1, i2 := Find(teams, ms[0].team1).value, Find(teams, ms[0].team2).value;
      Tally(ms[1..], if ms[0].winner == ms[0].team1 then Credit(teams, i1, i2) else Credit(teams, i2, i1)))
  {
  }

  /** A schedule of unplayed matches tallies nothing. */
  lemma {:induction false} TallyPending(ms: seq<Match>, teams: seq<Team>)
    requires forall m :: m in ms ==> !m.completed
    ensures Tally(ms, teams) == Ok(teams)
    decreases |ms|
  {
    if |ms| > 0 {
      assert ms[0] in ms;
      assert forall m :: m in ms[1..] ==> m in ms;
      TallyPending(ms[1..], teams);
    }
  }

  /** Crediting one consistent result moves the team at `j` by its own win and loss. */
  lemma CreditCounts(m: Match, teams: seq<Team>, credited: seq<Team>, j: int)
    requires UniqueNames(teams) && 0 <= j < |teams|
    requires m.completed && Consistent(m) && Knows(teams, m)
    requires credited == (
      var i1, i2 := Find(teams, m.team1).value, Find(teams, m.team2).value;
      if m.winner == m.team1 then Credit(teams, i1, i2) else Credit(teams, i2, i1))
    ensures UniqueNames(credited) && |credited| == |teams| && credited[j].name == teams[j].name
    ensures credited[j].matchesFor == teams[j].matchesFor + (if m.winner == teams[j].name then 1 else 0)
    ensures credited[j].matchesAgainst == teams[j].matchesAgainst + (if Loser(m) == teams[j].name then 1 else 0)
  {
    var i1, i2 := Find(teams, m.team1).value, Find(teams, m.team2).value;
    FindUnique(teams, j);
    assert j == i1 <==> teams[j].name == m.team1;
    assert j == i2 <==> teams[j].name == m.team2;
    SameNamesUnique(teams, credited);
    if m.winner == m.team1 {
      assert Loser(m) == m.team2;
    } else {
      assert m.winner == m.team2 && Loser(m) == m.team1;
    }
  }

  /** The side credited with the loss: team2 when the winner is team1, else team1. */
  function Loser(m: Match): string {
    if m.winner == m.team1 then m.team2 else m.team1
  }

  /** Recorded results won by `name`. */
  function Wins(ms: seq<Match>, name: string): int {
    if |ms| == 0 then 0
    else (if ms[0].completed && ms[0].winner == name then 1 else 0) + Wins(ms[1..], name)
  }

  /** Recorded results lost by `name`. */
  function Losses(ms: seq<Match>, name: string): int {
    if |ms| == 0 then 0
    else (if ms[0].completed && Loser(ms[0]) == name then 1 else 0) + Losses(ms[1..], name)
  }

  // ---------------------------------------------------------------------------
  // Loading a season

  /** Some schedule row names `name` on a side that registration looks at. */
  ghost predicate OnSchedule(fs: seq<Fixture>, name: string, bothSides: bool) {
    exists j :: 0 <= j < |fs| && (fs[j].home == name || (bothSides && fs[j].away == name))
  }

  /** Every recorded result names a team2 that registration will have seen. */
  ghost predicate ResultsResolvable(fs: seq<Fixture>, bothSides: bool) {
    forall i :: 0 <= i < |fs| && fs[i].score.Some? ==> OnSchedule(fs, fs[i].away, bothSides)
  }

  /** The matches of a season in replay order: built from the rows, then sorted by date. */
  function Schedule(fs: seq<Fixture>, markOriginal: bool): seq<Match> {
    SortByDate(MakeMatches(fs, markOriginal))
  }

  /**
    The common loader: build, sort by date, register, tally. `bothSides` selects
    which sides registration looks at. It fails exactly when a recorded result
    names a team registration did not see.
   */
  function Load(fs: seq<Fixture>, starting: map<string, real>, markOriginal: bool, bothSides: bool)
    : (r: Result<SeasonData>)
    ensures r.Ok? <==> ResultsResolvable(fs, bothSides)
  {
    var ms := Schedule(fs, markOriginal);
    var registered := Register(ms, starting, [], bothSides);
    LoadResolvable(fs, starting, markOriginal, bothSides, ms, registered);
    WithMatches(ms, Tally(ms, registered))
  }

  /** The season made of `ms` and a tallied roster, or the tally's error. */
  function WithMatches(ms: seq<Match>, tallied: Result<seq<Team>>): (r: Result<SeasonData>)
    ensures r.Ok? <==> tallied.Ok?
    ensures r.Ok? ==> r.value == SeasonData(ms, tallied.value)
    ensures r.UnknownTeam? ==> r.name == tallied.name
  {
    match tallied
    case Ok(teams) => Ok(SeasonData(ms, teams))
    case UnknownTeam(name) => UnknownTeam(name)
  }

  /** The loader unfolded one step: the tally of the registered schedule. */
  lemma LoadSteps(fs: seq<Fixture>, starting: map<string, real>, markOriginal: bool, bothSides: bool)
    ensures var ms := Schedule(fs, markOriginal);
      Load(fs, starting, markOriginal, bothSides) == WithMatches(ms, Tally(ms, Register(ms, starting, [], bothSides)))
  {
  }

  lemma LoadResolvable(fs: seq<Fixture>, starting: map<string, real>, markOriginal: bool, bothSides: bool,
                       ms: seq<Match>, registered: seq<Team>)
    requires ms == Schedule(fs, markOriginal)
    requires registered == Register(ms, starting, [], bothSides)
    ensures (forall m :: m in ms && m.completed ==> Knows(registered, m)) <==> ResultsResolvable(fs, bothSides)
  {
    var built := MakeMatches(fs, markOriginal);
    SameMembers(ms, built);
    RegisteredOnSchedule(fs, markOriginal, bothSides, built, ms, registered);
    Resolvable(fs, markOriginal, bothSides, built, ms, registered);
  }

  /** The schedule is the rows' matches sorted by date, same-date matches in row order. */
  lemma ScheduleOrder(fs: seq<Fixture>, markOriginal: bool)
    ensures multiset(Schedule(fs, markOriginal)) == multiset(MakeMatches(fs, markOriginal))
    ensures forall i, j :: 0 <= i < j < |Schedule(fs, markOriginal)| ==>
      Schedule(fs, markOriginal)[i].date <= Schedule(fs, markOriginal)[j].date
    ensures Sorting.KeepsTies(MakeMatches(fs, markOriginal), Schedule(fs, markOriginal), DateKey)
  {
  }

  /**
    Every scheduled match is consistent, and in the simulation script's marking
    `orig_completed` is set exactly on the matches that had a score in the input.
   */
  lemma ScheduleMarks(fs: seq<Fixture>, markOriginal: bool)
    ensures forall m :: m in Schedule(fs, markOriginal) ==>
      Consistent(m) && (m.origCompleted <==> markOriginal && m.completed)
  {
    var built := MakeMatches(fs, markOriginal);
    var ms := Schedule(fs, markOriginal);
    SameMembers(ms, built);
    forall m | m in ms ensures Consistent(m) && (m.origCompleted <==> markOriginal && m.completed) {
      var i :| 0 <= i < |built| && built[i] == m;
    }
  }

  /** A loaded season's roster: one team per registered name, at its starting rating. */
  lemma LoadRoster(fs: seq<Fixture>, starting: map<string, real>, markOriginal: bool, bothSides: bool)
    requires Load(fs, starting, markOriginal, bothSides).Ok?
    ensures UniqueNames(Load(fs, starting, markOriginal, bothSides).value.teams)
    ensures forall name ::
      Find(Load(fs, starting, markOriginal, bothSides).value.teams, name).Some? <==> OnSchedule(fs, name, bothSides)
    ensures var teams := Load(fs, starting, markOriginal, bothSides).value.teams;
      forall i :: 0 <= i < |teams| ==> teams[i].elo == StartingElo(starting, teams[i].name) && teams[i].numPlayoffs == 0
    ensures NamesOf(Load(fs, starting, markOriginal, bothSides).value.teams)
         == FirstSeen(Sides(Schedule(fs, markOriginal), bothSides), {})
  {
    var ms := Schedule(fs, markOriginal);
    var built := MakeMatches(fs, markOriginal);
    var registered := Register(ms, starting, [], bothSides);
    var teams := Tally(ms, registered).value;
    SameMembers(ms, built);
    RegisteredOnSchedule(fs, markOriginal, bothSides, built, ms, registered);
    forall name ensures Find(teams, name) == Find(registered, name) {
      FindSameNames(teams, registered, name);
    }
    assert Known([]) == {};
    assert NamesOf(teams) == NamesOf(registered);
  }

  /** In a loaded season both tallies total the number of recorded results. */
  lemma LoadTotals(fs: seq<Fixture>, starting: map<string, real>, markOriginal: bool, bothSides: bool)
    requires Load(fs, starting, markOriginal, bothSides).Ok?
    ensures var s := Load(fs, starting, markOriginal, bothSides).value;
      Total(s.teams, WinsOf) == CompletedCount(s.matches) as real
    ensures var s := Load(fs, starting, markOriginal, bothSides).value;
      Total(s.teams, LossesOf) == CompletedCount(s.matches) as real
  {
    var registered := Register(Schedule(fs, markOriginal), starting, [], bothSides);
    TotalZero(registered, WinsOf);
    TotalZero(registered, LossesOf);
  }

  /** In a loaded season both sides of every recorded result are in the roster. */
  lemma LoadKnowsResults(fs: seq<Fixture>, starting: map<string, real>, markOriginal: bool, bothSides: bool)
    requires Load(fs, starting, markOriginal, bothSides).Ok?
    ensures var s := Load(fs, starting, markOriginal, bothSides).value;
      forall m :: m in s.matches && m.completed ==> Knows(s.teams, m)
  {
    var ms := Schedule(fs, markOriginal);
    var registered := Register(ms, starting, [], bothSides);
    var teams := Tally(ms, registered).value;
    forall name ensures Find(teams, name) == Find(registered, name) {
      FindSameNames(teams, registered, name);
    }
  }

  lemma SameMembers<T>(a: seq<T>, b: seq<T>)
    requires multiset(a) == multiset(b)
    ensures forall x :: x in a <==> x in b
  {
    forall x ensures x in a <==> x in b {
      assert x in a <==> x in multiset(a);
      assert x in b <==> x in multiset(b);
    }
  }

  lemma RegisteredOnSchedule(fs: seq<Fixture>, markOriginal: bool, bothSides: bool,
                             built: seq<Match>, ms: seq<Match>, registered: seq<Team>)
    requires |built| == |fs|
    requires forall j :: 0 <= j < |fs| ==> built[j].team1 == fs[j].home && built[j].team2 == fs[j].away
    requires forall m :: m in ms <==> m in built
    requires forall name :: Find(registered, name).Some? <==> Listed(ms, name, bothSides)
    ensures forall name :: Find(registered, name).Some? <==> OnSchedule(fs, name, bothSides)
  {
    forall name ensures Listed(ms, name, bothSides) <==> OnSchedule(fs, name, bothSides) {
      ListedMember(ms, name, bothSides);
      if OnSchedule(fs, name, bothSides) {
        var j :| 0 <= j < |fs| && (fs[j].home == name || (bothSides && fs[j].away == name));
        assert built[j] in ms;
      }
      if Listed(ms, name, bothSides) {
        var m :| m in ms && (m.team1 == name || (bothSides && m.team2 == name));
        var j :| 0 <= j < |built| && built[j] == m;
      }
    }
  }

  lemma Resolvable(fs: seq<Fixture>, markOriginal: bool, bothSides: bool,
                   built: seq<Match>, ms: seq<Match>, registered: seq<Team>)
    requires |built| == |fs| && forall j :: 0 <= j < |fs| ==> built[j] == MakeMatch(fs[j], markOriginal)
    requires forall m :: m in ms <==> m in built
    requires forall name :: Find(registered, name).Some? <==> OnSchedule(fs, name, bothSides)
    ensures (forall m :: m in ms && m.completed ==> Knows(registered, m)) <==> ResultsResolvable(fs, bothSides)
  {
    if forall m :: m in ms && m.completed ==> Knows(registered, m) {
      forall i | 0 <= i < |fs| && fs[i].score.Some? ensures OnSchedule(fs, fs[i].away, bothSides) {
        assert built[i] in ms;
      }
    }
    if ResultsResolvable(fs, bothSides) {
      forall m | m in ms && m.completed ensures Knows(registered, m) {
        var i :| 0 <= i < |built| && built[i] == m;
        assert OnSchedule(fs, m.team1, bothSides);
      }
    }
  }

  /** A total over teams that all score zero is zero. */
  lemma {:induction false} TotalZero(teams: seq<Team>, f: Team -> real)
    requires forall i :: 0 <= i < |teams| ==> f(teams[i]) == 0.0
    ensures Total(teams, f) == 0.0
  {
    if |teams| > 0 {
      TotalZero(teams[1..], f);
    }
  }

  /**
    `read_season` as written: the matches in date order, and a roster holding only
    the teams that appear as team1; a recorded result against a team that never
    appears as team1 raises `KeyError`.
   */
  function ReadSeason(fs: seq<Fixture>, starting: map<string, real>, markOriginal: bool): (r: Result<SeasonData>)
    ensures r.Ok? <==> forall i :: 0 <= i < |fs| && fs[i].score.Some? ==>
      exists j :: 0 <= j < |fs| && fs[j].home == fs[i].away
    ensures r.Ok? ==> r.value.matches == Schedule(fs, markOriginal)
    ensures r.Ok? ==> UniqueNames(r.value.teams)
    ensures r.Ok? ==> forall name :: Find(r.value.teams, name).Some? <==>
      exists j :: 0 <= j < |fs| && fs[j].home == name
    ensures r.Ok? ==> forall i :: 0 <= i < |r.value.teams| ==>
      r.value.teams[i].elo == StartingElo(starting, r.value.teams[i].name) && r.value.teams[i].numPlayoffs == 0
    ensures r.Ok? ==> Total(r.value.teams, WinsOf) == CompletedCount(r.value.matches) as real
    ensures r.Ok? ==> Total(r.value.teams, LossesOf) == CompletedCount(r.value.matches) as real
    ensures r.Ok? ==> NamesOf(r.value.teams) == FirstSeen(Sides(r.value.matches, false), {})
  {
    var r := Load(fs, starting, markOriginal, false);
    if r.Ok? then
      LoadRoster(fs, starting, markOriginal, false);
      LoadTotals(fs, starting, markOriginal, false);
      r
    else r
  }

  /**
    The loader with both sides of every match registered: it never fails, and every
    match of the season, played or not, has both its teams in the roster.
   */
  function ReadSeasonRegisteringBoth(fs: seq<Fixture>, starting: map<string, real>, markOriginal: bool)
    : (r: Result<SeasonData>)
    ensures r.Ok?
    ensures r.value.matches == Schedule(fs, markOriginal)
    ensures UniqueNames(r.value.teams)
    ensures forall name :: Find(r.value.teams, name).Some? <==>
      exists j :: 0 <= j < |fs| && (fs[j].home == name || fs[j].away == name)
    ensures forall m :: m in r.value.matches ==> Knows(r.value.teams, m)
    ensures Total(r.value.teams, WinsOf) == CompletedCount(r.value.matches) as real
    ensures Total(r.value.teams, LossesOf) == CompletedCount(r.value.matches) as real
    ensures NamesOf(r.value.teams) == FirstSeen(Sides(r.value.matches, true), {})
  {
    assert ResultsResolvable(fs, true) by {
      forall i | 0 <= i < |fs| && fs[i].score.Some? ensures OnSchedule(fs, fs[i].away, true) {
      }
    }
    var r := Load(fs, starting, markOriginal, true);
    LoadRoster(fs, starting, markOriginal, true);
    LoadTotals(fs, starting, markOriginal, true);
    BothSidesKnown(fs, markOriginal, r.value.teams);
    r
  }

  lemma BothSidesKnown(fs: seq<Fixture>, markOriginal: bool, teams: seq<Team>)
    requires forall name :: Find(teams, name).Some? <==> OnSchedule(fs, name, true)
    ensures forall m :: m in Schedule(fs, markOriginal) ==> Knows(teams, m)
  {
    var built := MakeMatches(fs, markOriginal);
    SameMembers(Schedule(fs, markOriginal), built);
    forall m | m in Schedule(fs, markOriginal) ensures Knows(teams, m) {
      var i :| 0 <= i < |built| && built[i] == m;
      assert OnSchedule(fs, m.team1, true) && OnSchedule(fs, m.team2, true);
    }
  }

  /**
    After a successful load every team's tallies count exactly the recorded results
    it won and lost.
   */
  lemma ReadSeasonCounts(fs: seq<Fixture>, starting: map<string, real>, markOriginal: bool, j: int)
    requires ReadSeason(fs, starting, markOriginal).Ok?
    requires 0 <= j < |ReadSeason(fs, starting, markOriginal).value.teams|
    ensures var s := ReadSeason(fs, starting, markOriginal).value;
      s.teams[j].matchesFor == Wins(s.matches, s.teams[j].name)
    ensures var s := ReadSeason(fs, starting, markOriginal).value;
      s.teams[j].matchesAgainst == Losses(s.matches, s.teams[j].name)
  {
    var ms := Schedule(fs, markOriginal);
    var registered := Register(ms, starting, [], false);
    ReadSeasonIsLoad(fs, starting, markOriginal);
    LoadSteps(fs, starting, markOriginal, false);
    ScheduleMarks(fs, markOriginal);
    TallyCounts(ms, registered, j);
  }

  /**
    A season whose only row has a result: its away team is never team1, so it was
    never registered, and loading raises `KeyError` on its name.
   */
  lemma AwayOnlyTeamRaises(f: Fixture, starting: map<string, real>, markOriginal: bool)
    requires f.score.Some? && f.home != f.away
    ensures ReadSeason([f], starting, markOriginal) == UnknownTeam(f.away)
  {
    var m := MakeMatch(f, markOriginal);
    OneRowSchedule(f, markOriginal);
    var registered := [Registration(starting, f.home)];
    OneMatchRegistered(m, starting);
    assert Find(registered, f.home) == Some(0) && Find(registered, f.away) == None;
    TallyOneUnknown(m, registered);
    LoadSteps([f], starting, markOriginal, false);
    ReadSeasonIsLoad([f], starting, markOriginal);
  }

  lemma TallyOneUnknown(m: Match, teams: seq<Team>)
    requires m.completed && Find(teams, m.team1).Some? && Find(teams, m.team2).None?
    ensures Tally([m], teams) == UnknownTeam(m.team2)
  {
  }

  /** `read_season` is the loader registering team1 only. */
  lemma ReadSeasonIsLoad(fs: seq<Fixture>, starting: map<string, real>, markOriginal: bool)
    ensures ReadSeason(fs, starting, markOriginal) == Load(fs, starting, markOriginal, false)
  {
  }

  /** A one-row season has the one match as its schedule. */
  lemma OneRowSchedule(f: Fixture, markOriginal: bool)
    ensures Schedule([f], markOriginal) == [MakeMatch(f, markOriginal)]
  {
    var built := MakeMatches([f], markOriginal);
    assert built == [MakeMatch(f, markOriginal)];
    assert built[1..] == [];
  }

  /** Registering one match team1-only registers its team1. */
  lemma OneMatchRegistered(m: Match, starting: map<string, real>)
    ensures Register([m], starting, [], false) == [Registration(starting, m.team1)]
  {
    assert [m][1..] == [];
  }
}

=== FILE: sorting.dfy ===
/**
  Stable sorting by a real-valued key.

  Python's `list.sort(key=...)` and `sorted(..., key=...)` are stable, also with
  `reverse=True` (equal keys keep their input order). Every sort in the scripts is
  therefore modelled as one stable ascending insertion sort; a descending sort is
  the ascending sort on the negated key.
 */
module Sorting {

  /** Keys never decrease along `s`. */
  ghost predicate SortedBy<T>(s: seq<T>, key: T -> real) {
    forall i, j :: 0 <= i < j < |s| ==> key(s[i]) <= key(s[j])
  }

  /** The subsequence of `s` whose key is exactly `v`, in the order of `s`. */
  function WithKey<T>(s: seq<T>, key: T -> real, v: real): seq<T> {
    if |s| == 0 then []
    else (if key(s[0]) == v then [s[0]] else []) + WithKey(s[1..], key, v)
  }

  /**
    Stability stated per key: for every key value, the elements carrying it appear
    in the same relative order in `r` as in `s`.
   */
  ghost predicate KeepsTies<T>(s: seq<T>, r: seq<T>, key: T -> real) {
    forall v :: WithKey(r, key, v) == WithKey(s, key, v)
  }

  /**
    Inserts `x` in front of the first element whose key is not smaller, so `x`
    lands before every element of `s` that has the same key.
   */
  function Insert<T>(x: T, s: seq<T>, key: T -> real): (r: seq<T>)
    requires SortedBy(s, key)
    ensures SortedBy(r, key)
    ensures multiset(r) == multiset(s) + multiset{x}
    ensures |r| == |s| + 1
    ensures forall v ::
      WithKey(r, key, v) == (if key(x) == v then [x] + WithKey(s, key, v) else WithKey(s, key, v))
  {
    if |s| == 0 || key(x) <= key(s[0]) then
      InsertFront(x, s, key);
      [x] + s
    else
      var t := Insert(x, s[1..], key);
      InsertLater(x, s, t, key);
      [s[0]] + t
  }

  lemma WithKeyCons<T>(x: T, s: seq<T>, key: T -> real, v: real)
    ensures WithKey([x] + s, key, v) == (if key(x) == v then [x] + WithKey(s, key, v) else WithKey(s, key, v))
  {
    assert ([x] + s)[1..] == s;
  }

  lemma InsertFront<T>(x: T, s: seq<T>, key: T -> real)
    requires SortedBy(s, key)
    requires |s| == 0 || key(x) <= key(s[0])
    ensures SortedBy([x] + s, key)
    ensures forall v ::
      WithKey([x] + s, key, v) == (if key(x) == v then [x] + WithKey(s, key, v) else WithKey(s, key, v))
  {
    forall v ensures WithKey([x] + s, key, v) == (if key(x) == v then [x] + WithKey(s, key, v) else WithKey(s, key, v)) {
      WithKeyCons(x, s, key, v);
    }
    ConsSorted(x, s, key);
  }

  /** An element no larger than the head of a sorted sequence can go in front of it. */
  lemma ConsSorted<T>(x: T, s: seq<T>, key: T -> real)
    requires SortedBy(s, key)
    requires |s| == 0 || key(x) <= key(s[0])
    ensures SortedBy([x] + s, key)
  {
    var r := [x] + s;
    forall i, j | 0 <= i < j < |r| ensures key(r[i]) <= key(r[j]) {
      if i > 0 {
        assert r[i] == s[i - 1] && r[j] == s[j - 1];
      } else {
        assert r[j] == s[j - 1];
        assert key(s[0]) <= key(s[j - 1]);
      }
    }
  }

  lemma InsertLater<T>(x: T, s: seq<T>, t: seq<T>, key: T -> real)
    requires SortedBy(s, key) && |s| > 0 && key(s[0]) < key(x)
    requires SortedBy(t, key) && multiset(t) == multiset(s[1..]) + multiset{x}
    requires forall v ::
      WithKey(t, key, v) == (if key(x) == v then [x] + WithKey(s[1..], key, v) else WithKey(s[1..], key, v))
    ensures SortedBy([s[0]] + t, key)
    ensures multiset([s[0]] + t) == multiset(s) + multiset{x}
    ensures forall v ::
      WithKey([s[0]] + t, key, v) == (if key(x) == v then [x] + WithKey(s, key, v) else WithKey(s, key, v))
  {
    assert s == [s[0]] + s[1..];
    HeadBelow(x, s, t, key);
    ConsSorted(s[0], t, key);
    var r := [s[0]] + t;
    forall v ensures WithKey(r, key, v) == (if key(x) == v then [x] + WithKey(s, key, v) else WithKey(s, key, v)) {
      WithKeyCons(s[0], t, key, v);
      WithKeyCons(s[0], s[1..], key, v);
    }
  }

  /** The head of a sorted sequence is no larger than anything of its tail with a larger `x` added. */
  lemma HeadBelow<T>(x: T, s: seq<T>, t: seq<T>, key: T -> real)
    requires SortedBy(s, key) && |s| > 0 && key(s[0]) < key(x)
    requires multiset(t) == multiset(s[1..]) + multiset{x}
    ensures forall j :: 0 <= j < |t| ==> key(s[0]) <= key(t[j])
  {
    forall j | 0 <= j < |t| ensures key(s[0]) <= key(t[j]) {
      assert t[j] in multiset(t);
      if t[j] != x {
        assert t[j] in multiset(s[1..]);
        var k :| 0 <= k < |s[1..]| && s[1..][k] == t[j];
        assert s[k + 1] == t[j];
      }
    }
  }

  /** Stable ascending sort of `s` by `key`. */
  function Sort<T>(s: seq<T>, key: T -> real): (r: seq<T>)
    ensures SortedBy(r, key)
    ensures multiset(r) == multiset(s)
    ensures |r| == |s|
    ensures KeepsTies(s, r, key)
  {
    if |s| == 0 then []
    else
      var t := Sort(s[1..], key);
      assert s == [s[0]] + s[1..];
      Insert(s[0], t, key)
  }

  /** Two keys that agree on every element of `s` pick out the same elements of it. */
  lemma {:induction false} WithKeyAgree<T>(s: seq<T>, k1: T -> real, k2: T -> real, v: real)
    requires forall x :: x in s ==> k1(x) == k2(x)
    ensures WithKey(s, k1, v) == WithKey(s, k2, v)
  {
    if |s| > 0 {
      assert s[0] in s;
      assert forall x :: x in s[1..] ==> x in s;
      WithKeyAgree(s[1..], k1, k2, v);
    }
  }

  /** No element occurs twice in `s`. */
  ghost predicate Distinct<T>(s: seq<T>) {
    forall i, j :: 0 <= i < j < |s| ==> s[i] != s[j]
  }

  /** Reordering a sequence without duplicates cannot create one. */
  lemma PermutationKeepsDistinct<T>(s: seq<T>, r: seq<T>)
    requires multiset(r) == multiset(s) && Distinct(s)
    ensures Distinct(r)
  {
    forall i, j | 0 <= i < j < |r| ensures r[i] != r[j] {
      if r[i] == r[j] {
        TwoOccurrences(r, i, j);
        AtMostOnce(s, r[i]);
        assert false;
      }
    }
  }

  lemma TwoOccurrences<T>(s: seq<T>, i: int, j: int)
    requires 0 <= i < j < |s| && s[i] == s[j]
    ensures multiset(s)[s[i]] >= 2
  {
    assert s == s[..j] + s[j..];
    assert s[i] in s[..j];
    assert s[j..][0] == s[i];
  }

  lemma {:induction false} AtMostOnce<T>(s: seq<T>, x: T)
    requires Distinct(s)
    ensures multiset(s)[x] <= 1
  {
    if |s| > 0 {
      assert s == [s[0]] + s[1..];
      AtMostOnce(s[1..], x);
      if s[0] == x {
        assert x !in s[1..];
      }
    }
  }
}
